=== FILE: README.md ===
# Club events chatbot: verified model of the deterministic core

This project models, in Dafny, the deterministic logic of a club-events
assistant. That logic sits around its language-model and database calls.
Every answer of the outside world is a parameter of the model: the
classifier's reply, the rows a query returns, the retrieved passages, and
whether the encoder, the connection or the insert succeeds.

The model has four parts.

- **Question answering** (`backend/query_pipeline.py`), in the modules
  `QueryPipeline` and `Report`. It covers:
  - extracting the year from a question;
  - mapping the classifier's reply to one of six intents, in priority order;
  - the `_safe` filter that drops sentinel results;
  - the fallback for the requested attribute list;
  - the annual report, the analytics table, and the filter, describe and
    recommend answers;
  - the line filter for single-event answers;
  - the dispatch on the intent.
- **Attribute answers** (`query_pipeline.py`, an Express route written in
  JavaScript), in the module `AttributeAnswer`. It covers:
  - the fallback when the model's reply does not parse;
  - the "no event" and "not found" exits;
  - the selection of labelled lines through the route's field map;
  - the final trim.
- **Ingestion** of a new event, in three variants:
  - `frontend.py`, in the module `FrontendIngest`: validation, a busy lock
    taken without waiting, and a status dictionary;
  - `backend/frontend.py`, in the module `BackendIngest`: an `(ok, message)`
    pair;
  - `retriever.py`, in the module `RetrieverIngest`: stripped perks, and a
    rollback on failure.

  The module `EventRecord` holds what the three share: the sixteen-value
  insert row and the four-line search text that is embedded.
- **The "Add New Event" page** (`new_event.py`), in the module `NewEvent`.
  It covers:
  - the submit guard and the re-entrancy flag;
  - the derivation of the final event name;
  - the form dictionary sent for ingestion;
  - the time format;
  - the notice shown for each ingestion result;
  - the page composed with the ingestion of `frontend.py`.

Three modules are shared helpers:

- `Text`: Python's and JavaScript's string built-ins (`strip`, `trim`,
  `split`, `join`, `upper`, `lower`, `replace`, slicing, `str(int)`).
- `PyValues`: form values that are a string or `None`.
- `JsonValues`: parsed JSON and JavaScript's `String(v)`, which fails on
  an object with its own `toString` member.

Some properties are proved about one call, as `ensures` clauses. Others
relate several calls, as lemmas:

- round trips: a stored search text parses back into its parts, a formatted
  time parses back, a joined answer splits back into its lines;
- invariants: the lock state is restored, and `_safe` is idempotent;
- fixed layouts: where each part of the report sits;
- independence: which oracle answers an answer can depend on.

## Model

| member | source | states |
|---|---|---|
| QueryPipeline.FirstYearFrom | backend/query_pipeline.py:12 | the index found is the first position from `i` on where `20dd` occurs, and None means there is no such position |
| QueryPipeline.ExtractYear | backend/query_pipeline.py:11-15 | with no `20dd` in the text the result is the current year; otherwise it is the value of the leftmost match, so it lies in 2000..2099 |
| QueryPipeline.ExtractYearExample | backend/query_pipeline.py:11-15 | "list all events in 2024" yields 2024 whatever the current year |
| QueryPipeline.FirstMentioned | backend/query_pipeline.py:45-50 | the intent returned is mentioned in the reply, and no label of higher priority is |
| QueryPipeline.IntentOfReply | backend/query_pipeline.py:44-50 | every reply maps to one intent: the highest-priority label (MULTI, ANALYTICS, FILTER, DESCRIBE, RECOMMEND) in the stripped upper-cased reply, else SINGLE |
| QueryPipeline.LabelsDistinct | backend/query_pipeline.py:45-49 | no label contains a label of higher priority, so each label is reachable |
| QueryPipeline.LabelRoundTrip | backend/query_pipeline.py:44-50 | a reply that is exactly a label maps back to that label's intent |
| QueryPipeline.FirstMentionedIsEarliest | backend/query_pipeline.py:44-50 | a normalised reply that mentions a label, and no label checked before it, is read as that label's intent; one that mentions no label other than SINGLE is read as SINGLE |
| QueryPipeline.ExtractFields | backend/query_pipeline.py:77-84 | the attribute list is never empty; it is the parsed list exactly when the reply parsed to a non-empty list, and `["all"]` otherwise |
| QueryPipeline.BuildDescription | backend/query_pipeline.py:169-172 | with something retrieved the description is the best passage alone, and the answer never carries the "No matches" marker |
| QueryPipeline.BuildRecommend | backend/query_pipeline.py:175-178 | with nothing retrieved the answer is "No recommended events found."; otherwise it starts with the best passage |
| QueryPipeline.BuildFiltered | backend/query_pipeline.py:163-166 | the answer is "No matches." exactly when nothing was retrieved or the first passage contains "No matches" |
| QueryPipeline.JoinIsNotSentinel | backend/query_pipeline.py:165-166 | real passages never join into the text "No matches." |
| QueryPipeline.FilteredSplitsBack | backend/query_pipeline.py:166 | the filter answer splits on line breaks back into the retrieved passages |
| QueryPipeline.FirstThree | backend/query_pipeline.py:178 | `ctx[:3]` is a prefix of the passages, of length at most 3 |
| QueryPipeline.NoMatchMessages | backend/query_pipeline.py:163-184 | with nothing retrieved, the filter, describe, recommend and single-event answers are their four fixed messages |
| QueryPipeline.RecommendIsFirstThree | backend/query_pipeline.py:175-178 | a recommendation is the filter answer over the first three passages, and it splits back into them |
| QueryPipeline.MatchCountZero | backend/query_pipeline.py:193-200 | a line is appended no times exactly when it carries no requested `label:` |
| QueryPipeline.RepeatMembers | backend/query_pipeline.py:195-200 | the copies of a line contain that line and nothing else, and none when there are no matches |
| QueryPipeline.KeptLinesAppend | backend/query_pipeline.py:192-200 | the filter distributes over concatenation, so the output of an earlier line comes before that of a later one |
| QueryPipeline.KeptLines | backend/query_pipeline.py:192-200 | a line is in the output exactly when it is a line of the block carrying at least one requested `label:` |
| QueryPipeline.SingleAnswer | backend/query_pipeline.py:181-202 | with nothing retrieved the answer is "Not found."; otherwise every line of the answer is a line of the best passage |
| QueryPipeline.SingleAnswerLines | backend/query_pipeline.py:181-202 | with "all" requested or no line kept the answer is the whole first passage; otherwise it splits into exactly the kept lines |
| QueryPipeline.UnknownFieldsGiveWholeBlock | backend/query_pipeline.py:189-202 | when no known label is requested the answer is the whole first passage |
| QueryPipeline.HandleUserQuery | backend/query_pipeline.py:205-215 | no answer comes back exactly when the classifier call raised, since nothing catches that exception |
| QueryPipeline.MultiIgnoresRetrieval | backend/query_pipeline.py:205-209 | a MULTI question is the report for the year in the question, and passages and attribute replies play no part |
| QueryPipeline.AnalyticsIgnoresRetrieval | backend/query_pipeline.py:203-209 | an ANALYTICS question is answered by the analytics builder for the year the question names; passages, attribute reply and report rows play no part |
| QueryPipeline.RetrievalIgnoresDatabase | backend/query_pipeline.py:205-215 | a question routed to retrieval depends on the passages and attribute reply only, not on rows or the clock |
| QueryPipeline.UnlabelledGoesToSingle | backend/query_pipeline.py:205-215 | a reply naming none of the five labels gets the single-event answer |
| QueryPipeline.LabelRoutes | backend/query_pipeline.py:205-215 | a reply that is exactly FILTER, DESCRIBE, RECOMMEND or SINGLE is answered by that builder |
| QueryPipeline.ReportExample | backend/query_pipeline.py:205-209 | "list all events in 2024" classified MULTI is the 2024 annual report |
| Report.Safe | backend/query_pipeline.py:53-57 | the rows come back unchanged or as nothing; nothing exactly when they are empty or the first cell starts with "SQL error" or is "No results" or "Connection error" |
| Report.SafeInspectsFirstCellOnly | backend/query_pipeline.py:53-57 | two non-empty results with the same first cell are both kept or both dropped |
| Report.SafeIdempotent | backend/query_pipeline.py:53-57 | filtering twice is filtering once |
| Report.DatesMembers | backend/query_pipeline.py:98 | the collected dates are exactly the non-null first cells; they are none exactly when every date is NULL |
| Report.MinDate | backend/query_pipeline.py:100 | the minimum is one of the dates and no later than any of them |
| Report.MaxDate | backend/query_pipeline.py:101 | the maximum is one of the dates and no earlier than any of them |
| Report.PeriodCases | backend/query_pipeline.py:98-102 | the period is the year when every date is NULL, else the earliest and latest non-null dates of the rows |
| Report.BuildReport | backend/query_pipeline.py:94-96 | the report is "No events found for {year}." exactly when the filtered rows are empty |
| Report.ReportLayout | backend/query_pipeline.py:94-144 | a non-empty report splits into title, summary, event table, domain section and venue section in that order; the total read back is the number of rows |
| Report.LayoutPositions | backend/query_pipeline.py:120-144 | the index of each part among the report's lines: title, total, period, then each table after its four heading lines |
| Report.BuildAnalytics | backend/query_pipeline.py:156-157 | the analytics answer is "No data." exactly when the filtered rows are empty |
| Report.AnalyticsLayout | backend/query_pipeline.py:158-160 | the analytics answer splits into its title with the year, the header, and one line per count row in query order |
| AttributeAnswer.SelectedKeys | query_pipeline.py:86-88 | only field-map keys are selected, at most one per requested value |
| AttributeAnswer.SelectedKeysAppend | query_pipeline.py:86-88 | selection keeps request order: selecting from two lists concatenates the selections |
| AttributeAnswer.SelectedKeysMembership | query_pipeline.py:86-88 | a key is selected exactly when it is a field-map key that some requested value converts to |
| AttributeAnswer.SelectionEmptyIff | query_pipeline.py:90 | the selected lines trim to nothing exactly when no key was selected |
| AttributeAnswer.FullText | query_pipeline.py:68-75 | when no column holds a line break and the details do not trim away, the trimmed full answer is the six lines Name, Domain, Date, Time, Venue, Details in that order; blank inner columns are allowed |
| AttributeAnswer.ListAnswerLines | query_pipeline.py:67-103 | when no column holds a line break and the last line shown does not trim away: with "all" or nothing selected the answer is the six lines; otherwise it is the selected lines in request order, repetitions included |
| AttributeAnswer.AppendedAgrees | query_pipeline.py:86-88 | without inherited keys, the appended text is the selected field lines, each followed by a break |
| AttributeAnswer.AsWrittenAgreesOnOwnKeys | query_pipeline.py:77-101 | the route as written and the corrected selection give the same answer when no requested value names an inherited member |
| AttributeAnswer.InheritedKeyCounterexample | query_pipeline.py:86-88 | for an event with no line break in any column and details that do not trim away, requesting "constructor" gives the text of `Object` as written, but the full block when corrected |
| JsonValues.JsString | query_pipeline.py:54 | converting a value to text fails exactly when it is, or an array holds at any depth, an object with its own `toString` member; otherwise it gives the JavaScript text of the value |
| AttributeAnswer.AttributesAnswer | query_pipeline.py:67-108 | a list containing "all" gives the full block; any other list is the server error exactly when one of its values cannot be converted to a property key, and is otherwise answered with its own lines; a string is answered with the full block when it contains "all" and is the server error otherwise; any other value is the server error |
| AttributeAnswer.HandleQuery | query_pipeline.py:38-60 | under either reading of the field map, a failed model call or a `null` reply is the server error; an unparsable reply or a missing or falsy event gives "Could not identify event name"; an event that cannot be rendered is the server error |
| AttributeAnswer.LookupOnlyThroughPattern | query_pipeline.py:51-56 | the database is consulted only with the `%event%` pattern, and not at all when no event was understood or it cannot be rendered |
| AttributeAnswer.FoundEventAnswer | query_pipeline.py:52-67 | an event that cannot be rendered is the server error whatever the database holds; otherwise a failed lookup is the server error, zero rows give "Event not found in database", and else only the first row is used |
| AttributeAnswer.AttributesAgree | query_pipeline.py:67-101 | once the row is known, the answer as written and the corrected answer coincide unless a requested value names an inherited member |
| AttributeAnswer.RouteAgreesOnOwnKeys | query_pipeline.py:38-103 | the whole route as written and the corrected route give the same response unless a requested attribute names an inherited member |
| AttributeAnswer.RouteCounterexample | query_pipeline.py:38-103 | a request for `constructor` about a found event with no line break in any column and details that do not trim away is answered with the text of `Object` by the route as written, and with the event's full block by the corrected route |
| AttributeAnswer.ObjectEventFails | query_pipeline.py:52-56 | the event `{"toString": 0}` ends in the server error under either reading, even when "all" is requested |
| AttributeAnswer.ObjectAttributeFails | query_pipeline.py:86-88 | a requested value `{"toString": 0}` about a found event ends in the server error under either reading |
| EventRecord.BuildRow | frontend.py:103-120 | event id equals the name and serial is 0; each column holds the form's value when its key is present, `None` included, and its default ("N/A", "0", or `None`) only when absent |
| EventRecord.SearchTextRoundTrip | frontend.py:56-61 | the search text parses back into name, domain, description and perks when the first three are single lines |
| EventRecord.SearchTextInjective | frontend.py:56-61 | different single-line parts never give the same search text |
| FrontendIngest.MakeSearchText | frontend.py:53-62 | the "Description" search text parses back into name, domain, stripped description and perks when the first three are single lines |
| FrontendIngest.Process | frontend.py:71-125 | status "success" exactly when a row is stored, with the form's row and the vector embedded for exactly the search text; the event id returned is the name |
| FrontendIngest.AddNewEvent | frontend.py:64-132 | the lock is held afterwards exactly as before; an incomplete form is refused with no effect, and a held lock gives "busy" with no effect |
| FrontendIngest.StoredExactlyWhenAllSucceed | frontend.py:64-122 | an event is stored exactly when the form is complete, the lock free, and model, encoder, connection and insert all succeed |
| FrontendIngest.StoredUnderName | frontend.py:103-122 | a stored event is reported as success under the form's name, which is also the row's id |
| FrontendIngest.FailureMessages | frontend.py:73-125 | each failing step is reported with its own message, in the order model, encoder, connection, insert |
| FrontendIngest.StepsStopAtFailure | frontend.py:73-88 | no embedding without the model, no connection after an encoder failure, no insert without a connection |
| FrontendIngest.StoredTextReadsBack | frontend.py:53-62 | the stored search text parses back into the parts that were embedded |
| BackendIngest.MakeSearchText | backend/frontend.py:18-28 | the "Details" search text parses back into its four parts when the first three are single lines |
| BackendIngest.AddNewEvent | backend/frontend.py:30-77 | no connection gives `(False, "Database connection error.")` with nothing embedded; success is `(True, "Event added.")` exactly when a row is stored |
| BackendIngest.StoredExactlyWhenAllSucceed | backend/frontend.py:30-75 | an event is stored exactly when connection, registration, encoder and insert succeed; a nameless form is stored with a `None` id |
| BackendIngest.FailureMessages | backend/frontend.py:34-77 | a failure reports the text of the first step that raised |
| BackendIngest.StoredTextReadsBack | backend/frontend.py:18-28 | the stored "Details" search text parses back into the embedded parts |
| RetrieverIngest.MakeSearchText | retriever.py:7-15 | the search text of the stripped parts parses back into them when the first three are single lines |
| RetrieverIngest.AddNewEvent | retriever.py:1-63 | once connected the connection is always closed; it is rolled back exactly when nothing is stored; success is `(True, "Event added successfully.")` exactly when a row is stored |
| RetrieverIngest.StoredExactlyWhenAllSucceed | retriever.py:1-58 | an event is stored exactly when connection, encoder, registration and insert succeed |
| RetrieverIngest.AgreesWithBackend | retriever.py:7-37 | this path and the one of backend/frontend.py store the same columns; they store the same row when the perks need no stripping and the encoder is the same |
| RetrieverIngest.StoredTextReadsBack | retriever.py:7-15 | the stored search text parses back into the stripped parts |
| NewEvent.FormatTime | new_event.py:43-47 | the text is "N/A" exactly when no time was picked, and a picked time gives eight characters |
| NewEvent.FormatTimeRoundTrip | new_event.py:43-49 | the `%I:%M %p` text reads back as the picked time, and "N/A" as no time |
| NewEvent.Hour12 | new_event.py:47 | the twelve-hour clock shows 1 to 12, congruent to the hour modulo 12 |
| NewEvent.BaseName | new_event.py:60 | the name before normalisation is never empty |
| NewEvent.Slug | new_event.py:61 | every space becomes "_", the length is capped at 150, and a non-empty name stays non-empty |
| NewEvent.FinalName | new_event.py:60-61 | the final name is non-empty, at most 150 characters long, and contains no space |
| NewEvent.SlugKeepsSlugs | new_event.py:61 | a name without spaces of at most 150 characters is kept as it is |
| NewEvent.FinalNameChoice | new_event.py:60-61 | the final name comes from the stripped event id when it is not blank, else from the stripped title, else from "event_" and the first eight hex digits; an id or fallback that is already a slug is used unchanged |
| NewEvent.FormData | new_event.py:66-79 | every column key holds the value the page sends for it, and the description key holds the stripped description |
| NewEvent.FormKeysExactly | new_event.py:66-79 | the form has exactly twelve keys: the eleven column keys and the description key |
| NewEvent.OptionalFieldSent | new_event.py:71-77 | venue, speakers, perks and both coordinator lists are sent stripped, and as `None` exactly when blank |
| NewEvent.ModeAndFeeSent | new_event.py:74-75 | the mode is sent unstripped, as `None` exactly when empty; the fee is always text, "0" when blank and the stripped text otherwise |
| NewEvent.NameDomainDateTimeSent | new_event.py:63-70 | the final name is sent as given, the domain stripped, the date as `%Y-%m-%d`, and the time as text that reads back as the picked time |
| NewEvent.DictNotice | new_event.py:92-109 | status "success" is saved, under the returned id when truthy and else the final name; "busy" is the busy notice with the message; "error" is the failure notice with the message; any other status is the unexpected notice |
| NewEvent.ResultNotice | new_event.py:88-118 | a raised exception is reported as "Ingestion function raised: …"; a string is saved under the final name exactly when, lower-cased, it starts with "success", and is a failure otherwise; any other value is a failure |
| NewEvent.Submit | new_event.py:51-123 | the flag is as before afterwards; while it is set nothing is sent; a rejected form sends nothing; otherwise exactly the form dictionary of the final name is sent when ingestion is available |
| NewEvent.FrontendNotice | new_event.py:92-109 | a reply of frontend.py is shown as saved, busy, failed or unexpected according to its status |
| NewEvent.BlankDescriptionRejectedDownstream | new_event.py:55-78 | a description of blanks passes the page but is refused by frontend.py as "Missing required fields" |
| NewEvent.SavedUnderFinalName | new_event.py:60-98 | a submission that frontend.py stores is reported as saved under the final name, which is the stored id |
| NewEvent.BlankPerksEmbeddedAsNone | new_event.py:77 | blank perks reach frontend.py's search text as the word "None" |

## Left out

- The language-model calls are left out: their prompts and the models they name (`_detect_intent`, `_extract_fields`, the route's intent prompt). Their replies are parameters.
- The SQL text and its evaluation (`EXTRACT(YEAR …)`, `GROUP BY`, `ORDER BY`, `LIKE`) are left out. Query results are given row sequences, and the route's lookup is a function of the pattern.
- `query_relational_db` and `query_vector_db` are not part of this model. The `retriever.py` shown defines only `add_new_event`, and the module's connection helper and encoder are parameters too.
- `_get_db_url`, `_get_db_connection`, `_load_model` and its model cache are reduced to booleans (`connects`, `modelLoads`). Secrets and environment variables are out of scope.
- The threading of `frontend.py` is left out. The process lock is a boolean that the call receives and hands back, and `_MODEL_LOCK` is not modelled.
- Embedding vectors are a sequence of reals that the encoder parameter returns. The `tolist` and `float` conversions are left out.
- Streamlit, Express and logging output are left out: `st.*` rendering, the `st.json` preview, `print`, `console.error`, `traceback`. So are the widgets' `max_chars` limits.
- The exception `_detect_intent` raises when its model call fails is `None` from QueryPipeline.HandleUserQuery. How app.py shows it ("Something went wrong: …") is left out, like the rest of the rendering.
- The page's outer `except` (new_event.py:119-121) is left out. Every step before ingestion is total in the model, and exceptions raised by ingestion are modelled.
- The UUID and the date picker are left out. The hex string and the picked date are parameters.
- `strftime` is modelled for the C locale only.
- The route's row columns are text or `null`. How the database driver renders dates or numbers into the template is left out.
- Report cells are `None`, strings, integers or dates. Python's rendering of times and decimals is not modelled.
- JSON numbers are integers only, so non-integral numbers as requested attributes are left out.
- JsonValues.JsString: renders an integer with all its digits. JavaScript holds a JSON number as a double, so an integer beyond 2^53 is rounded when parsed, and one of 10^21 or more renders in exponent form ("1e+21"); double rounding and formatting are not modelled.
- QueryPipeline.ExtractYear recognises the ASCII digits 0-9 only. Python's `\d` also matches other Unicode decimal digits, so the model is weaker there.
- AttributeAnswer.ListAnswerLines: states the line-by-line shape of the answer only when no column holds a line break and the last line shown does not trim away. Other events still get the answer `AttributeAnswer.AttributesAnswer` defines, but its split into lines is not stated.
- AttributeAnswer.FullText: the six-line shape likewise needs columns without line breaks and details that do not trim away.
- Text.Upper and Text.Lower are exact only for characters whose case mapping contains an ASCII letter. Every other character is left unchanged, which is enough for comparisons against the ASCII labels.

## Findings

| source | as written | input that shows it | evidently intended | confidence | as-written member | corrected member |
|---|---|---|---|---|---|---|
| query_pipeline.py:86-88 | `fieldMap[attr]` also finds members every object inherits from `Object.prototype`, so an attribute named after one is answered with that member's text | `attributes_requested: ["constructor"]` answers "function Object() { [native code] }" | only the six own keys select a line, and a request naming none of them falls back to the full six-line block | not executed | AttributeAnswer.RouteCounterexample | AttributeAnswer.ListAnswerLines |

The as-written lookup is `AttributeAnswer.ListAnswerAsWritten`. The corrected
selection is `AttributeAnswer.ListAnswer`. The route takes the reading as a
parameter: `HandleQuery(Written, …)` is the route as written and
`HandleQuery(Corrected, …)` the corrected one.
`AttributeAnswer.InheritedKeyCounterexample` shows the discrepancy on the
answer text alone. `AttributeAnswer.AsWrittenAgreesOnOwnKeys` and
`AttributeAnswer.RouteAgreesOnOwnKeys` prove that the two agree whenever no
requested value names an inherited member.

Two further details are modelled as written:

- The period separator (backend/query_pipeline.py:102) is the three
  characters U+00E2 U+20AC U+201C. This is an en dash encoded in UTF-8 and
  read back as Windows-1252.
- backend/frontend.py closes its connection on the success path only.

=== FILE: attribute_answer.dfy ===
/** The Express `/query` route of query_pipeline.py: the model extracts an
    event name and the requested attributes as JSON, the first event whose
    name matches is fetched, and the answer lists the requested attribute
    lines of that event, or all of them. The model's reply, already parsed,
    and the database lookup are parameters. */
module AttributeAnswer {
  import opened Wrappers
  import opened Text
  import opened JsonValues

  /** A column of the fetched row, as the database driver hands it over. */
  datatype DbValue = DbNull | DbText(s: string)

  /** How a template literal renders a column: `null` prints as "null". */
  function Shown(v: DbValue): string {
    match v
    case DbNull => "null"
    case DbText(s) => s
  }

  /** The columns of an `events` row the answer uses. */
  datatype EventRow = EventRow(name: DbValue, domain: DbValue, date: DbValue,
                               time: DbValue, venue: DbValue, details: DbValue)

  /** What the model call produced: it raised, its text was not JSON, or
      the parsed document. */
  datatype ModelReply = ModelFailed | Unparsable | Parsed(doc: Json)

  /** What the database call produced: it raised, or the rows found. */
  datatype DbOutcome = DbFailed | Rows(rows: seq<EventRow>)

  /** The JSON body sent back: an answer, or the status-500 error. */
  datatype Response = Answer(text: string) | ServerError(message: string)

  const NoEventMessage: string := "Could not identify event name \U{2753}"
  const NotFoundMessage: string := "Event not found in database \U{274c}"
  const ServerErrorMessage: string := "Internal Server Error \U{274c}"

  /** The attribute keys the field map defines, in the order of the full
      answer. */
  const Keys: seq<string> := ["name", "domain", "date", "time", "venue", "details"]

  function Caption(key: string): string
    requires key in Keys
  {
    if key == "name" then "Name"
    else if key == "domain" then "Domain"
    else if key == "date" then "Date"
    else if key == "time" then "Time"
    else if key == "venue" then "Venue"
    else "Details"
  }

  function Column(ev: EventRow, key: string): DbValue
    requires key in Keys
  {
    if key == "name" then ev.name
    else if key == "domain" then ev.domain
    else if key == "date" then ev.date
    else if key == "time" then ev.time
    else if key == "venue" then ev.venue
    else ev.details
  }

  /** The line the field map holds for a key, e.g. "Venue: Main hall". */
  function FieldLine(ev: EventRow, key: string): string
    requires key in Keys
  {
    Caption(key) + ": " + Shown(Column(ev, key))
  }

  /** The lines of several keys, in the given order. */
  function FieldLines(ev: EventRow, keys: seq<string>): (r: seq<string>)
    requires forall i :: 0 <= i < |keys| ==> keys[i] in Keys
    ensures |r| == |keys| && forall i :: 0 <= i < |keys| ==> r[i] == FieldLine(ev, keys[i])
  {
    if keys == [] then [] else [FieldLine(ev, keys[0])] + FieldLines(ev, keys[1..])
  }

  /** The template holding every attribute: a line break, then one line
      per attribute, each followed by a line break. */
  function FullBlock(ev: EventRow): string {
    "\n" + Lines(FieldLines(ev, Keys))
  }

  /** The pattern handed to the `LIKE` lookup: the event value as a
      template literal renders it, between two `%`. */
  function Pattern(text: string): string {
    "%" + text + "%"
  }

  // ---------------------------------------------------------------------
  // Selecting attribute lines

  /** The field-map keys the requested values name, in request order and
      with repetitions: each value is looked up under the property key it
      converts to, and only the map's own keys are kept. */
  function SelectedKeys(items: seq<Json>): (r: seq<string>)
    ensures |r| <= |items|
    ensures forall i :: 0 <= i < |r| ==> r[i] in Keys
  {
    if items == [] then []
    else
      var k := JsText(items[0]);
      (if k in Keys then [k] else []) + SelectedKeys(items[1..])
  }

  /** The request order is kept: selecting from two lists one after the
      other selects the keys of the first list, then those of the second. */
  lemma {:induction false} SelectedKeysAppend(a: seq<Json>, b: seq<Json>)
    ensures SelectedKeys(a + b) == SelectedKeys(a) + SelectedKeys(b)
    decreases |a|
  {
    if a == [] {
      assert a + b == b;
    } else {
      SelectedKeysAppend(a[1..], b);
      assert (a + b)[0] == a[0];
      assert (a + b)[1..] == a[1..] + b;
    }
  }

  /** A key is selected exactly when it is one of the field map's keys and
      some requested value converts to it. */
  lemma {:induction false} SelectedKeysMembership(items: seq<Json>, k: string)
    ensures k in SelectedKeys(items) <==> k in Keys && exists i :: 0 <= i < |items| && JsText(items[i]) == k
    decreases |items|
  {
    if items != [] {
      SelectedKeysMembership(items[1..], k);
      var head := JsText(items[0]);
      assert SelectedKeys(items) == (if head in Keys then [head] else []) + SelectedKeys(items[1..]);
      if exists i :: 0 <= i < |items| && JsText(items[i]) == k {
        var i :| 0 <= i < |items| && JsText(items[i]) == k;
        if i > 0 {
          assert JsText(items[1..][i - 1]) == k;
        }
      }
      if exists i :: 0 <= i < |items[1..]| && JsText(items[1..][i]) == k {
        var i :| 0 <= i < |items[1..]| && JsText(items[1..][i]) == k;
        assert JsText(items[i + 1]) == k;
      }
    }
  }

  /** The answer for a request list, when the map's own keys are the only
      ones that resolve: the whole block when "all" is requested, the
      selected lines otherwise, and the whole block again when nothing was
      selected. */
  function ListAnswer(ev: EventRow, items: seq<Json>): string {
    if JStr("all") in items then JsTrim(FullBlock(ev))
    else
      var acc := Lines(FieldLines(ev, SelectedKeys(items)));
      if JsTrim(acc) == "" then JsTrim(FullBlock(ev)) else JsTrim(acc)
  }

  /** Lines that survive trimming and splitting intact: each non-empty and
      without a line break, the first not starting and the last not ending
      in whitespace. */
  predicate FramedLines(ls: seq<string>) {
    && ls != []
    && (forall i :: 0 <= i < |ls| ==> ls[i] != [] && '\n' !in ls[i])
    && StartsVisible(ls[0])
    && EndsVisible(ls[|ls| - 1])
  }

  /** The text opens with a character that trimming keeps. */
  predicate StartsVisible(t: string) {
    t != [] && !IsJsSpace(t[0])
  }

  /** The text ends with a character that trimming keeps. */
  predicate EndsVisible(t: string) {
    t != [] && !IsJsSpace(t[|t| - 1])
  }

  lemma CaptionFacts(key: string)
    requires key in Keys
    ensures var c := Caption(key) + ": "; |c| > 2 && '\n' !in c && !IsJsSpace(c[0])
  {
  }

  /** Field lines start with their caption, never with whitespace. */
  lemma FieldLineStart(ev: EventRow, key: string)
    requires key in Keys
    ensures FieldLine(ev, key) != [] && !IsJsSpace(FieldLine(ev, key)[0])
  {
    CaptionFacts(key);
  }

  /** Selected lines leave something after trimming exactly when at least
      one key was selected. */
  lemma SelectionEmptyIff(ev: EventRow, keys: seq<string>)
    requires forall i :: 0 <= i < |keys| ==> keys[i] in Keys
    ensures JsTrim(Lines(FieldLines(ev, keys))) == "" <==> keys == []
  {
    if keys != [] {
      var ls := FieldLines(ev, keys);
      FieldLineStart(ev, keys[0]);
      assert Lines(ls)[0] == ls[0][0];
    }
  }

  /** A column renders tidily: one non-empty line that does not end in
      whitespace. */
  predicate TidyText(t: string) {
    t != [] && '\n' !in t && !IsJsSpace(t[|t| - 1])
  }

  /** No column of the row holds a line break. Columns may be empty or end
      in whitespace. */
  predicate Unbroken(ev: EventRow) {
    && '\n' !in Shown(ev.name) && '\n' !in Shown(ev.domain) && '\n' !in Shown(ev.date)
    && '\n' !in Shown(ev.time) && '\n' !in Shown(ev.venue) && '\n' !in Shown(ev.details)
  }

  /** In a row without line breaks, a field line is one line opening with
      its caption, and it ends in a visible character when its column
      renders tidily. */
  lemma FieldLineShape(ev: EventRow, key: string)
    requires Unbroken(ev) && key in Keys
    ensures FieldLine(ev, key) != [] && '\n' !in FieldLine(ev, key) && StartsVisible(FieldLine(ev, key))
    ensures TidyText(Shown(Column(ev, key))) ==> EndsVisible(FieldLine(ev, key))
  {
    CaptionFacts(key);
    var c := Caption(key) + ": ";
    var v := Shown(Column(ev, key));
    assert '\n' !in v;
    var t := c + v;
    assert t == FieldLine(ev, key);
    assert t[0] == c[0];
    if v != [] {
      assert t[|t| - 1] == v[|v| - 1];
    }
    assert '\n' !in t by {
      forall i | 0 <= i < |t|
        ensures t[i] != '\n'
      {
        if i < |c| {
          assert t[i] == c[i];
        } else {
          assert t[i] == v[i - |c|];
        }
      }
    }
  }

  /** The field lines of a row without line breaks are non-empty single
      lines. */
  lemma FieldLinesUnbroken(ev: EventRow, keys: seq<string>)
    requires Unbroken(ev)
    requires forall i :: 0 <= i < |keys| ==> keys[i] in Keys
    ensures forall i :: 0 <= i < |keys| ==> FieldLines(ev, keys)[i] != [] && '\n' !in FieldLines(ev, keys)[i]
  {
    forall i | 0 <= i < |keys|
      ensures FieldLines(ev, keys)[i] != [] && '\n' !in FieldLines(ev, keys)[i]
    {
      FieldLineShape(ev, keys[i]);
    }
  }

  /** The field lines of a row without line breaks are framed when the
      column of the last key renders tidily. */
  lemma FramedFieldLines(ev: EventRow, keys: seq<string>)
    requires Unbroken(ev) && keys != []
    requires forall i :: 0 <= i < |keys| ==> keys[i] in Keys
    requires TidyText(Shown(Column(ev, keys[|keys| - 1])))
    ensures FramedLines(FieldLines(ev, keys))
  {
    var ls := FieldLines(ev, keys);
    FieldLinesUnbroken(ev, keys);
    var first := FieldLine(ev, keys[0]);
    var last := FieldLine(ev, keys[|keys| - 1]);
    FieldLineShape(ev, keys[0]);
    FieldLineShape(ev, keys[|keys| - 1]);
    assert ls[0] == first && ls[|ls| - 1] == last;
    assert StartsVisible(ls[0]) && EndsVisible(ls[|ls| - 1]);
  }

  /** A join on line breaks starts with its first part and ends with its
      last. */
  lemma {:induction false} JoinEnds(ls: seq<string>)
    requires ls != [] && forall i :: 0 <= i < |ls| ==> ls[i] != []
    ensures var j := Join("\n", ls); j != [] && j[0] == ls[0][0] && j[|j| - 1] == ls[|ls| - 1][|ls[|ls| - 1]| - 1]
    decreases |ls|
  {
    if |ls| > 1 {
      JoinEnds(ls[1..]);
      assert Join("\n", ls) == ls[0] + "\n" + Join("\n", ls[1..]);
    }
  }

  /** Framed lines, each followed by a break, trim to their join on line
      breaks, which splits back into the lines. */
  lemma GoodLines(ls: seq<string>)
    requires FramedLines(ls)
    ensures |ls[0]| <= |Join("\n", ls)| && Join("\n", ls)[..|ls[0]|] == ls[0]
    ensures JsTrim(Lines(ls)) == Join("\n", ls)
    ensures JsTrim("\n" + Lines(ls)) == Join("\n", ls)
    ensures Split(Join("\n", ls), '\n') == ls
  {
    GoodLinesTrim(ls);
    assert forall i :: 0 <= i < |ls| ==> '\n' !in ls[i];
    SplitJoin(ls, '\n');
    JoinPrefix(ls);
  }

  lemma JoinPrefix(ls: seq<string>)
    requires ls != []
    ensures |ls[0]| <= |Join("\n", ls)| && Join("\n", ls)[..|ls[0]|] == ls[0]
  {
    if |ls| > 1 {
      var r := Join("\n", ls[1..]);
      assert Join("\n", ls) == ls[0] + ("\n" + r);
    }
  }

  lemma GoodLinesTrim(ls: seq<string>)
    requires FramedLines(ls)
    ensures JsTrim(Lines(ls)) == Join("\n", ls)
    ensures JsTrim("\n" + Lines(ls)) == Join("\n", ls)
  {
    var j := Join("\n", ls);
    assert forall i :: 0 <= i < |ls| ==> ls[i] != [];
    JoinEnds(ls);
    LinesJoin(ls);
    TrimFramed(j, IsJsSpace);
  }

  /** In a row without line breaks whose last selected column renders
      tidily, trimmed selected lines are those lines joined by line breaks,
      and they split back into the lines. */
  lemma SelectedText(ev: EventRow, keys: seq<string>)
    requires Unbroken(ev) && keys != []
    requires forall i :: 0 <= i < |keys| ==> keys[i] in Keys
    requires TidyText(Shown(Column(ev, keys[|keys| - 1])))
    ensures JsTrim(Lines(FieldLines(ev, keys))) == Join("\n", FieldLines(ev, keys))
    ensures Split(Join("\n", FieldLines(ev, keys)), '\n') == FieldLines(ev, keys)
  {
    FramedFieldLines(ev, keys);
    GoodLines(FieldLines(ev, keys));
  }

  lemma KeysAreKeys()
    ensures forall i :: 0 <= i < |Keys| ==> Keys[i] in Keys
  {
  }

  /** In a row without line breaks whose details column renders tidily,
      the trimmed full block is the six attribute lines joined by line
      breaks. Blank or space-ended inner columns keep their lines: only the
      ends of the block are trimmed. */
  lemma FullText(ev: EventRow)
    requires Unbroken(ev) && TidyText(Shown(ev.details))
    ensures JsTrim(FullBlock(ev)) == Join("\n", FieldLines(ev, Keys))
    ensures Split(JsTrim(FullBlock(ev)), '\n') == FieldLines(ev, Keys)
  {
    KeysAreKeys();
    assert Column(ev, Keys[|Keys| - 1]) == ev.details;
    FramedFieldLines(ev, Keys);
    GoodLines(FieldLines(ev, Keys));
  }

  /** The full answer opens with the name caption. */
  lemma FullStartsWithName(ev: EventRow)
    requires Unbroken(ev) && TidyText(Shown(ev.details))
    ensures JsTrim(FullBlock(ev)) != [] && JsTrim(FullBlock(ev))[0] == 'N'
  {
    var full := FieldLines(ev, Keys);
    KeysAreKeys();
    assert Column(ev, Keys[|Keys| - 1]) == ev.details;
    FramedFieldLines(ev, Keys);
    GoodLines(full);
    var j := Join("\n", full);
    assert JsTrim(FullBlock(ev)) == j;
    assert full[0] == FieldLine(ev, "name");
    assert full[0][0] == 'N';
    assert j[0] == j[..|full[0]|][0];
  }

  /** The answer is made of whole attribute lines, for a row without line
      breaks whose last shown column renders tidily: with "all" requested,
      or nothing selected, it splits into the six lines of the event in the
      fixed order; otherwise it splits into the lines of the selected keys
      in request order, repetitions included. */
  lemma ListAnswerLines(ev: EventRow, items: seq<Json>)
    requires Unbroken(ev)
    requires JStr("all") in items || SelectedKeys(items) == [] ==> TidyText(Shown(ev.details))
    requires JStr("all") !in items && SelectedKeys(items) != [] ==>
               TidyText(Shown(Column(ev, SelectedKeys(items)[|SelectedKeys(items)| - 1])))
    ensures JStr("all") in items || SelectedKeys(items) == [] ==>
              Split(ListAnswer(ev, items), '\n') == FieldLines(ev, Keys)
    ensures JStr("all") !in items && SelectedKeys(items) != [] ==>
              Split(ListAnswer(ev, items), '\n') == FieldLines(ev, SelectedKeys(items))
  {
    var keys := SelectedKeys(items);
    SelectionEmptyIff(ev, keys);
    if JStr("all") in items || keys == [] {
      FullText(ev);
    } else {
      SelectedText(ev, keys);
    }
  }

  // ---------------------------------------------------------------------
  // The field map as written

  /** The methods every object literal inherits from `Object.prototype`. */
  const InheritedMethods: seq<string> := [
    "constructor", "hasOwnProperty", "isPrototypeOf", "propertyIsEnumerable",
    "toLocaleString", "toString", "valueOf", "__defineGetter__",
    "__defineSetter__", "__lookupGetter__", "__lookupSetter__"]

  /** `fieldMap[key]` rendered into the answer, as the code is written: an
      own key gives its line; an inherited method gives its source text
      ("function Object() { [native code] }" for `constructor`), and
      `__proto__` gives the prototype, rendered "[object Object]". */
  function FieldAsWritten(ev: EventRow, key: string): Option<string> {
    if key in Keys then Some(FieldLine(ev, key))
    else if key == "constructor" then Some("function Object() { [native code] }")
    else if key in InheritedMethods then Some("function " + key + "() { [native code] }")
    else if key == "__proto__" then Some("[object Object]")
    else None
  }

  /** The text appended for each requested value, as written. */
  function AppendedAsWritten(ev: EventRow, items: seq<Json>): string {
    if items == [] then ""
    else
      var piece := match FieldAsWritten(ev, JsText(items[0]))
        case Some(t) => t + "\n"
        case None => "";
      piece + AppendedAsWritten(ev, items[1..])
  }

  /** The request-list answer as written. */
  function ListAnswerAsWritten(ev: EventRow, items: seq<Json>): string {
    if JStr("all") in items then JsTrim(FullBlock(ev))
    else
      var acc := AppendedAsWritten(ev, items);
      if JsTrim(acc) == "" then JsTrim(FullBlock(ev)) else JsTrim(acc)
  }

  /** No requested value converts to an inherited key. */
  predicate OwnKeysOnly(items: seq<Json>) {
    forall i :: 0 <= i < |items| ==>
      JsText(items[i]) !in InheritedMethods && JsText(items[i]) != "__proto__"
  }

  lemma {:induction false} AppendedAgrees(ev: EventRow, items: seq<Json>)
    requires OwnKeysOnly(items)
    ensures AppendedAsWritten(ev, items) == Lines(FieldLines(ev, SelectedKeys(items)))
    decreases |items|
  {
    if items != [] {
      AppendedAgrees(ev, items[1..]);
      var k := JsText(items[0]);
      var ks := SelectedKeys(items[1..]);
      if k in Keys {
        assert SelectedKeys(items) == [k] + ks;
        assert FieldLines(ev, [k] + ks) == [FieldLine(ev, k)] + FieldLines(ev, ks);
      } else {
        assert "constructor" in InheritedMethods;
        assert SelectedKeys(items) == ks;
      }
    }
  }

  /** Whenever no requested value names an inherited key, the code as
      written and the corrected lookup give the same answer. */
  lemma AsWrittenAgreesOnOwnKeys(ev: EventRow, items: seq<Json>)
    requires OwnKeysOnly(items)
    ensures ListAnswerAsWritten(ev, items) == ListAnswer(ev, items)
  {
    AppendedAgrees(ev, items);
  }

  /** Requesting only `constructor`, which is not an attribute, was meant
      to fall back to the whole event; as written the answer is the source
      text of the `Object` constructor instead. */
  lemma InheritedKeyCounterexample(ev: EventRow)
    requires Unbroken(ev) && TidyText(Shown(ev.details))
    ensures ListAnswerAsWritten(ev, [JStr("constructor")]) == "function Object() { [native code] }"
    ensures ListAnswer(ev, [JStr("constructor")]) == JsTrim(FullBlock(ev))
    ensures ListAnswerAsWritten(ev, [JStr("constructor")]) != ListAnswer(ev, [JStr("constructor")])
  {
    AsWrittenConstructor(ev);
    CorrectedConstructor(ev);
    FullStartsWithName(ev);
    var t := "function Object() { [native code] }";
    assert t[0] == 'f';
  }

  lemma ConstructorNotKey()
    ensures "constructor" !in Keys
  {
  }

  lemma AsWrittenConstructor(ev: EventRow)
    ensures ListAnswerAsWritten(ev, [JStr("constructor")]) == "function Object() { [native code] }"
  {
    var t := "function Object() { [native code] }";
    var items := [JStr("constructor")];
    ConstructorNotKey();
    assert JStr("all") !in items;
    assert FieldAsWritten(ev, "constructor") == Some(t);
    assert items[1..] == [];
    assert AppendedAsWritten(ev, items) == t + "\n";
    ConstructorText();
  }

  lemma CorrectedConstructor(ev: EventRow)
    ensures ListAnswer(ev, [JStr("constructor")]) == JsTrim(FullBlock(ev))
  {
    var items := [JStr("constructor")];
    ConstructorNotKey();
    assert JStr("all") !in items;
    assert items[1..] == [];
    assert SelectedKeys(items) == [];
    SelectionEmptyIff(ev, []);
  }

  lemma ConstructorText()
    ensures JsTrim("function Object() { [native code] }" + "\n") == "function Object() { [native code] }"
  {
    var t := "function Object() { [native code] }";
    assert t[0] == 'f' && t[|t| - 1] == '}';
    TrimFramed(t, IsJsSpace);
  }

  // ---------------------------------------------------------------------
  // The route

  /** Which reading of `fieldMap[attr]` the route uses: as written, where
      the members every object inherits resolve too, or corrected, where
      only the six own keys do. */
  datatype FieldMap = Written | Corrected

  /** The request-list answer under the chosen reading. */
  function ListAnswerBy(fm: FieldMap, ev: EventRow, items: seq<Json>): string {
    match fm
    case Written => ListAnswerAsWritten(ev, items)
    case Corrected => ListAnswer(ev, items)
  }

  /** The response for the requested attributes once the event row is
      known. `attrs` is the `attributes_requested` member, None when it is
      missing; a value without the array methods the code calls raises, and
      the route answers with the server error. A list is searched for "all"
      without converting its values; otherwise every value is converted to
      a property key, and one that cannot be converted raises too. */
  function AttributesAnswer(fm: FieldMap, ev: EventRow, attrs: Option<Json>): (r: Response)
    ensures r.ServerError? <==> match attrs
                                case Some(JArray(items)) => JStr("all") !in items && ToStringThrows(JArray(items))
                                case Some(JStr(s)) => !Contains(s, "all")
                                case _ => true
    ensures attrs.Some? && attrs.value.JStr? && Contains(attrs.value.s, "all") ==> r == Answer(JsTrim(FullBlock(ev)))
    ensures attrs.Some? && attrs.value.JArray? && JStr("all") in attrs.value.items ==> r == Answer(JsTrim(FullBlock(ev)))
    ensures attrs.Some? && attrs.value.JArray? && JStr("all") !in attrs.value.items && !ToStringThrows(attrs.value) ==>
              r == Answer(ListAnswerBy(fm, ev, attrs.value.items))
  {
    match attrs
    case Some(JArray(items)) =>
      if JStr("all") !in items && JsString(JArray(items)).None? then ServerError(ServerErrorMessage)
      else Answer(ListAnswerBy(fm, ev, items))
    case Some(JStr(s)) =>
      if Contains(s, "all") then Answer(JsTrim(FullBlock(ev))) else ServerError(ServerErrorMessage)
    case _ => ServerError(ServerErrorMessage)
  }

  /** The `event` member of the parsed reply; None when the document has no
      such own member or is not an object. */
  function EventOf(doc: Json): Option<Json> {
    if doc.JObject? then Member(doc.members, "event") else None
  }

  function AttrsOf(doc: Json): Option<Json> {
    if doc.JObject? then Member(doc.members, "attributes_requested") else None
  }

  /** The event name was understood: the member is present and truthy. */
  predicate HasEvent(doc: Json) {
    EventOf(doc).Some? && !JsFalsy(EventOf(doc).value)
  }

  /** The `/query` handler, under either reading of the field map. An
      unparsable reply stands for the fallback intent, whose event is null;
      a reply that parses to `null` cannot be destructured and ends in the
      server error, and so does an event that cannot be rendered into the
      pattern, before the database is consulted. */
  function HandleQuery(fm: FieldMap, reply: ModelReply, lookup: string -> DbOutcome): (r: Response)
    ensures reply.ModelFailed? || reply == Parsed(JNull) ==> r == ServerError(ServerErrorMessage)
    ensures reply.Unparsable? ==> r == Answer(NoEventMessage)
    ensures reply.Parsed? && reply.doc != JNull && !HasEvent(reply.doc) ==> r == Answer(NoEventMessage)
    ensures reply.Parsed? && HasEvent(reply.doc) && ToStringThrows(EventOf(reply.doc).value) ==>
              r == ServerError(ServerErrorMessage)
  {
    match reply
    case ModelFailed => ServerError(ServerErrorMessage)
    case Unparsable => Answer(NoEventMessage)
    case Parsed(doc) =>
      if doc == JNull then ServerError(ServerErrorMessage)
      else if !HasEvent(doc) then Answer(NoEventMessage)
      else
        match JsString(EventOf(doc).value)
        case None => ServerError(ServerErrorMessage)
        case Some(text) =>
          match lookup(Pattern(text))
          case DbFailed => ServerError(ServerErrorMessage)
          case Rows(rows) =>
            if rows == [] then Answer(NotFoundMessage) else AttributesAnswer(fm, rows[0], AttrsOf(doc))
  }

  /** The text of the understood event, None when rendering it throws. */
  function EventText(doc: Json): Option<string>
    requires HasEvent(doc)
  {
    JsString(EventOf(doc).value)
  }

  /** The database is consulted once, with the pattern built from the
      event name, and only when the event was understood and rendered: two
      lookups that agree on that pattern give the same response, and
      otherwise any two lookups do. */
  lemma LookupOnlyThroughPattern(fm: FieldMap, reply: ModelReply, lookup: string -> DbOutcome, lookup': string -> DbOutcome)
    requires reply.Parsed? && HasEvent(reply.doc) && EventText(reply.doc).Some? ==>
               lookup(Pattern(EventText(reply.doc).value)) == lookup'(Pattern(EventText(reply.doc).value))
    ensures HandleQuery(fm, reply, lookup) == HandleQuery(fm, reply, lookup')
  {
  }

  /** With an event understood, an event that cannot be rendered is the
      server error whatever the database holds; otherwise a failed lookup is
      the server error, no row is the not-found message, and else only the
      first row matters: the response is the attribute answer for it. */
  lemma FoundEventAnswer(fm: FieldMap, doc: Json, lookup: string -> DbOutcome)
    requires HasEvent(doc)
    ensures ToStringThrows(EventOf(doc).value) ==> HandleQuery(fm, Parsed(doc), lookup) == ServerError(ServerErrorMessage)
    ensures !ToStringThrows(EventOf(doc).value) ==>
            var found := lookup(Pattern(JsText(EventOf(doc).value)));
            && (found.DbFailed? ==> HandleQuery(fm, Parsed(doc), lookup) == ServerError(ServerErrorMessage))
            && (found == Rows([]) ==> HandleQuery(fm, Parsed(doc), lookup) == Answer(NotFoundMessage))
            && (found.Rows? && found.rows != [] ==>
                  HandleQuery(fm, Parsed(doc), lookup) == AttributesAnswer(fm, found.rows[0], AttrsOf(doc)))
  {
    assert doc.JObject? && doc != JNull;
  }

  /** The request names no inherited member: it is not a list, or a list
      of own keys and unknown names only. */
  predicate RequestsOwnKeys(doc: Json) {
    match AttrsOf(doc)
    case Some(JArray(items)) => OwnKeysOnly(items)
    case _ => true
  }

  /** The handler as written and the corrected one differ only on
      requests that name an inherited member. */
  lemma RouteAgreesOnOwnKeys(reply: ModelReply, lookup: string -> DbOutcome)
    requires reply.Parsed? ==> RequestsOwnKeys(reply.doc)
    ensures HandleQuery(Written, reply, lookup) == HandleQuery(Corrected, reply, lookup)
  {
    if reply.Parsed? && HasEvent(reply.doc) && !ToStringThrows(EventOf(reply.doc).value) {
      var doc := reply.doc;
      FoundEventAnswer(Written, doc, lookup);
      FoundEventAnswer(Corrected, doc, lookup);
      var found := lookup(Pattern(JsText(EventOf(doc).value)));
      if found.Rows? && found.rows != [] {
        AttributesAgree(found.rows[0], AttrsOf(doc));
      }
    }
  }

  /** Once the row is known, the two readings answer alike unless a
      requested value names an inherited member. */
  lemma AttributesAgree(ev: EventRow, attrs: Option<Json>)
    requires attrs.Some? && attrs.value.JArray? ==> OwnKeysOnly(attrs.value.items)
    ensures AttributesAnswer(Written, ev, attrs) == AttributesAnswer(Corrected, ev, attrs)
  {
    if attrs.Some? && attrs.value.JArray? {
      var items := attrs.value.items;
      AsWrittenAgreesOnOwnKeys(ev, items);
      assert ListAnswerBy(Written, ev, items) == ListAnswerBy(Corrected, ev, items);
    }
  }

  /** The whole handler on a request for `constructor` about an event
      whose first row has no line breaks and a tidy details column: as written it answers with the source text
      of `Object`, corrected with the event's full block. */
  lemma RouteCounterexample(ev: EventRow, lookup: string -> DbOutcome)
    requires Unbroken(ev) && TidyText(Shown(ev.details))
    requires lookup(Pattern("Hackathon")).Rows? && lookup(Pattern("Hackathon")).rows != []
    requires lookup(Pattern("Hackathon")).rows[0] == ev
    ensures var doc := JObject([("event", JStr("Hackathon")), ("attributes_requested", JArray([JStr("constructor")]))]);
            && HandleQuery(Written, Parsed(doc), lookup) == Answer("function Object() { [native code] }")
            && HandleQuery(Corrected, Parsed(doc), lookup) == Answer(JsTrim(FullBlock(ev)))
  {
    var doc := JObject([("event", JStr("Hackathon")), ("attributes_requested", JArray([JStr("constructor")]))]);
    var ms := doc.members;
    assert |"attributes_requested"| != |"event"|;
    assert ms[..1] == [("event", JStr("Hackathon"))];
    assert Member(ms[..1], "event") == Some(JStr("Hackathon"));
    assert EventOf(doc) == Some(JStr("Hackathon"));
    assert AttrsOf(doc) == Some(JArray([JStr("constructor")]));
    assert |"Hackathon"| != 0;
    assert HasEvent(doc);
    var items := [JStr("constructor")];
    assert JsString(JStr("Hackathon")) == Some("Hackathon");
    assert items[1..] == [];
    assert JsString(JArray(items)) == Some("constructor");
    InheritedKeyCounterexample(ev);
    FoundEventAnswer(Written, doc, lookup);
    FoundEventAnswer(Corrected, doc, lookup);
    assert AttributesAnswer(Written, ev, Some(JArray(items))) == Answer(ListAnswerAsWritten(ev, items));
    assert ListAnswerBy(Corrected, ev, items) == ListAnswer(ev, items);
    assert AttributesAnswer(Corrected, ev, Some(JArray(items))) == Answer(ListAnswerBy(Corrected, ev, items));
  }

  /** An event object with its own `toString` member cannot be rendered
      into the pattern: the route fails before the database is consulted,
      even though "all" was requested. */
  lemma ObjectEventFails(fm: FieldMap, lookup: string -> DbOutcome)
    ensures var doc := JObject([("event", JObject([("toString", JNum(0))])),
                                ("attributes_requested", JArray([JStr("all")]))]);
            HandleQuery(fm, Parsed(doc), lookup) == ServerError(ServerErrorMessage)
  {
    var event := JObject([("toString", JNum(0))]);
    var doc := JObject([("event", event), ("attributes_requested", JArray([JStr("all")]))]);
    var ms := doc.members;
    assert |"attributes_requested"| != |"event"|;
    assert ms[..1] == [("event", event)];
    assert Member(ms[..1], "event") == Some(event);
    assert EventOf(doc) == Some(event);
    assert HasEvent(doc);
    assert event.members[0].0 == "toString";
    FoundEventAnswer(fm, doc, lookup);
  }

  /** A requested value that is an object with its own `toString` member
      cannot be turned into a property key: with the event found, the route
      fails instead of answering. */
  lemma ObjectAttributeFails(fm: FieldMap, lookup: string -> DbOutcome)
    requires lookup(Pattern("Hackathon")).Rows? && lookup(Pattern("Hackathon")).rows != []
    ensures var doc := JObject([("event", JStr("Hackathon")),
                                ("attributes_requested", JArray([JObject([("toString", JNum(0))])]))]);
            HandleQuery(fm, Parsed(doc), lookup) == ServerError(ServerErrorMessage)
  {
    var bad := JObject([("toString", JNum(0))]);
    var items := [bad];
    var doc := JObject([("event", JStr("Hackathon")), ("attributes_requested", JArray(items))]);
    var ms := doc.members;
    assert |"attributes_requested"| != |"event"|;
    assert ms[..1] == [("event", JStr("Hackathon"))];
    assert Member(ms[..1], "event") == Some(JStr("Hackathon"));
    assert EventOf(doc) == Some(JStr("Hackathon"));
    assert AttrsOf(doc) == Some(JArray(items));
    assert |"Hackathon"| != 0;
    assert HasEvent(doc);
    assert JsString(JStr("Hackathon")) == Some("Hackathon");
    assert bad.members[0].0 == "toString";
    assert ToStringThrows(items[0]);
    assert JStr("all") !in items;
    assert AttributesAnswer(fm, lookup(Pattern("Hackathon")).rows[0], AttrsOf(doc)) == ServerError(ServerErrorMessage);
    FoundEventAnswer(fm, doc, lookup);
  }
}

=== FILE: backend_ingest.dfy ===
/** `add_new_event` of backend/frontend.py: connects first, registers the
    vector type on the connection, embeds the search text and inserts the
    event, reporting the outcome as an `(ok, message)` pair. The
    connection, the registration, the encoder and the insert are
    parameters. */
module BackendIngest {
  import opened Wrappers
  import opened Text
  import opened PyValues
  import opened EventRecord
  import FrontendIngest

  /** The outside world during one call: whether a connection is obtained,
      the error `register_vector` raises, if any, what the encoder does with
      a text, and the error the insert raises, if any. */
  datatype Services = Services(
    connects: bool,
    registerError: Option<string>,
    embed: string -> FrontendIngest.EmbedResult,
    insertError: Option<string>)

  /** The returned pair. */
  datatype Reply = Reply(ok: bool, message: string)

  /** What the call did besides replying: the text given to the encoder,
      the committed row, and whether it called `close` on the connection. */
  datatype Effects = Effects(embedded: Option<string>, stored: Option<InsertRow>, closeCalled: bool)

  const ConnectionError: Reply := Reply(false, "Database connection error.")
  const Added: Reply := Reply(true, "Event added.")

  /** The parts of the search text: the perks are `or ""`-defaulted but
      not stripped. */
  function Fields(form: Form): SearchFields {
    SearchFields(
      Show(Get(form, "name_of_event", PyStr(""))),
      Show(Get(form, "event_domain", PyStr(""))),
      StoredDescription(form),
      OrEmpty(Get(form, "perks", PyStr(""))))
  }

  /** `_make_search_text` of this file: the third line is labelled
      "Details". */
  function MakeSearchText(form: Form): (r: string)
    ensures SingleLine("Details", Fields(form)) ==> ParseSearchText("Details", r) == Some(Fields(form))
  {
    if SingleLine("Details", Fields(form)) then
      SearchTextRoundTrip("Details", Fields(form));
      SearchText("Details", Fields(form))
    else
      SearchText("Details", Fields(form))
  }

  /** `add_new_event`. No field is validated. An event is stored exactly
      when the call reports success, and then with the form's row, the
      stripped description, the search text and the vector the encoder
      returned for exactly that text; the connection is closed on that path
      only. */
  function AddNewEvent(form: Form, sv: Services): (o: (Reply, Effects))
    ensures !sv.connects ==> o == (ConnectionError, Effects(None, None, false))
    ensures o.0.ok <==> o.1.stored.Some?
    ensures o.0.ok ==> o.0 == Added
    ensures o.1.closeCalled <==> o.1.stored.Some?
    ensures o.1.embedded.Some? ==> o.1.embedded == Some(MakeSearchText(form)) && sv.registerError.None?
    ensures o.1.stored.Some? ==>
              && sv.embed(MakeSearchText(form)).Embedded?
              && o.1.stored.value
                 == BuildRow(form, StoredDescription(form), MakeSearchText(form), sv.embed(MakeSearchText(form)).vector)
  {
    if !sv.connects then (ConnectionError, Effects(None, None, false))
    else if sv.registerError.Some? then (Reply(false, sv.registerError.value), Effects(None, None, false))
    else
      var text := MakeSearchText(form);
      match sv.embed(text)
      case EmbedFailed(e) => (Reply(false, e), Effects(Some(text), None, false))
      case Embedded(vector) =>
        match sv.insertError
        case Some(e) => (Reply(false, e), Effects(Some(text), None, false))
        case None =>
          (Added, Effects(Some(text), Some(BuildRow(form, StoredDescription(form), text, vector)), true))
  }

  /** An event is stored exactly when the connection, the registration,
      the encoder and the insert all succeed; the form is never checked, so
      an event without a name is stored with a `None` id. */
  lemma StoredExactlyWhenAllSucceed(form: Form, sv: Services)
    ensures AddNewEvent(form, sv).1.stored.Some? <==>
              sv.connects && sv.registerError.None? && sv.embed(MakeSearchText(form)).Embedded? && sv.insertError.None?
    ensures AddNewEvent(form, sv).1.stored.Some? && "name_of_event" !in form ==>
              AddNewEvent(form, sv).1.stored.value.eventId == PyNone
  {
  }

  /** A failure after connecting reports the exception's text itself, of
      the first step that raised. */
  lemma FailureMessages(form: Form, sv: Services)
    requires sv.connects
    ensures var o := AddNewEvent(form, sv).0;
            var e := sv.embed(MakeSearchText(form));
            && (sv.registerError.Some? ==> o == Reply(false, sv.registerError.value))
            && (sv.registerError.None? && e.EmbedFailed? ==> o == Reply(false, e.error))
            && (sv.registerError.None? && e.Embedded? && sv.insertError.Some? ==> o == Reply(false, sv.insertError.value))
  {
  }

  /** The stored search text reads back into the embedded parts. */
  lemma StoredTextReadsBack(form: Form, sv: Services)
    requires AddNewEvent(form, sv).1.stored.Some?
    requires SingleLine("Details", Fields(form))
    ensures ParseSearchText("Details", AddNewEvent(form, sv).1.stored.value.searchText) == Some(Fields(form))
  {
  }
}

=== FILE: event_record.dfy ===
/** What the three ingestion paths store for a new event: the sixteen
    values of the `INSERT INTO events` statement, and the search text whose
    embedding indexes the event. */
module EventRecord {
  import opened Wrappers
  import opened Text
  import opened PyValues

  /** The values of one INSERT, in column order: event_id, serial_no,
      name_of_event, event_domain, date_of_event, time_of_event,
      faculty_coordinators, student_coordinators, venue, mode_of_event,
      registration_fee, speakers, perks, description_insights, search_text,
      embedding. */
  datatype InsertRow = InsertRow(
    eventId: PyValue,
    serialNo: int,
    name: PyValue,
    domain: PyValue,
    date: PyValue,
    time: PyValue,
    faculty: PyValue,
    students: PyValue,
    venue: PyValue,
    mode: PyValue,
    fee: PyValue,
    speakers: PyValue,
    perks: PyValue,
    description: string,
    searchText: string,
    embedding: seq<real>)

  /** The columns filled from form keys of the same name. */
  datatype Field =
    | EventName | Domain | Date | Time | Faculty | Students | Venue | Mode | Fee | Speakers | Perks

  /** The form key each column is read from. */
  function Key(f: Field): string {
    match f
    case EventName => "name_of_event"
    case Domain => "event_domain"
    case Date => "date_of_event"
    case Time => "time_of_event"
    case Faculty => "faculty_coordinators"
    case Students => "student_coordinators"
    case Venue => "venue"
    case Mode => "mode_of_event"
    case Fee => "registration_fee"
    case Speakers => "speakers"
    case Perks => "perks"
  }

  /** Every column, in INSERT order. */
  const AllFields: seq<Field> :=
    [EventName, Domain, Date, Time, Faculty, Students, Venue, Mode, Fee, Speakers, Perks]

  /** The form key of the description, which no column shares. */
  const DescriptionKey: string := "description_insights"

  /** The description every ingestion path stores: the form's value
      stripped, "" when the key is missing or holds `None`. */
  function StoredDescription(form: Form): string {
    Strip(OrEmpty(Get(form, DescriptionKey, PyStr(""))))
  }

  /** Every column is listed, each key belongs to one column only, and no
      column reads the description's key. The length and first character
      of a key already tell it apart from the others. */
  lemma KeysDistinct()
    ensures forall f: Field :: f in AllFields
    ensures forall f: Field, g: Field :: Key(f) == Key(g) ==> f == g
    ensures forall f: Field :: Key(f) != DescriptionKey
  {
    forall f: Field
      ensures f in AllFields
    {
      match f
      case EventName => assert AllFields[0] == f;
      case Domain => assert AllFields[1] == f;
      case Date => assert AllFields[2] == f;
      case Time => assert AllFields[3] == f;
      case Faculty => assert AllFields[4] == f;
      case Students => assert AllFields[5] == f;
      case Venue => assert AllFields[6] == f;
      case Mode => assert AllFields[7] == f;
      case Fee => assert AllFields[8] == f;
      case Speakers => assert AllFields[9] == f;
      case Perks => assert AllFields[10] == f;
    }
    forall f: Field, g: Field | Key(f) == Key(g)
      ensures f == g
    {
      assert |Key(f)| == |Key(g)| && Key(f)[0] == Key(g)[0];
    }
    forall f: Field
      ensures Key(f) != DescriptionKey
    {
      assert DescriptionKey[0] == 'd' && |DescriptionKey| == 20;
    }
  }

  /** The value a column takes when its key is absent from the form: the
      name, domain and date are read without a default. */
  function ColumnDefault(f: Field): PyValue {
    match f
    case EventName | Domain | Date => PyNone
    case Fee => PyStr("0")
    case _ => PyStr("N/A")
  }

  /** The stored value of a column. */
  function ColumnFor(r: InsertRow, f: Field): PyValue {
    match f
    case EventName => r.name
    case Domain => r.domain
    case Date => r.date
    case Time => r.time
    case Faculty => r.faculty
    case Students => r.students
    case Venue => r.venue
    case Mode => r.mode
    case Fee => r.fee
    case Speakers => r.speakers
    case Perks => r.perks
  }

  /** The parameter tuple all three ingestion paths build. Every column
      named after a form key holds the form's value whenever the key is
      present, `None` included, and its default only when the key is
      absent; the event id is the event name and the serial number is 0. */
  function BuildRow(form: Form, description: string, searchText: string, embedding: seq<real>): (r: InsertRow)
    ensures r.eventId == r.name && r.serialNo == 0
    ensures forall f: Field :: ColumnFor(r, f) == (if Key(f) in form then form[Key(f)] else ColumnDefault(f))
    ensures r.description == description && r.searchText == searchText && r.embedding == embedding
  {
    var name := FormColumn(form, EventName);
    var r := InsertRow(
      name, 0, name, FormColumn(form, Domain), FormColumn(form, Date), FormColumn(form, Time),
      FormColumn(form, Faculty), FormColumn(form, Students), FormColumn(form, Venue),
      FormColumn(form, Mode), FormColumn(form, Fee), FormColumn(form, Speakers), FormColumn(form, Perks),
      description, searchText, embedding);
    ColumnsOfRow(r, form);
    r
  }

  /** A row whose eleven columns are read from the form reads back, column
      by column, as the form gives them. */
  lemma ColumnsOfRow(r: InsertRow, form: Form)
    requires r.name == FormColumn(form, EventName) && r.domain == FormColumn(form, Domain)
    requires r.date == FormColumn(form, Date) && r.time == FormColumn(form, Time)
    requires r.faculty == FormColumn(form, Faculty) && r.students == FormColumn(form, Students)
    requires r.venue == FormColumn(form, Venue) && r.mode == FormColumn(form, Mode)
    requires r.fee == FormColumn(form, Fee) && r.speakers == FormColumn(form, Speakers)
    requires r.perks == FormColumn(form, Perks)
    ensures forall f: Field :: ColumnFor(r, f) == FormColumn(form, f)
  {
    forall f: Field
      ensures ColumnFor(r, f) == FormColumn(form, f)
    {
      match f {
        case EventName =>
        case Domain =>
        case Date =>
        case Time =>
        case Faculty =>
        case Students =>
        case Venue =>
        case Mode =>
        case Fee =>
        case Speakers =>
        case Perks =>
      }
    }
  }

  /** The value a form gives the column of `f`. */
  function FormColumn(form: Form, f: Field): PyValue {
    Get(form, Key(f), ColumnDefault(f))
  }

  // ---------------------------------------------------------------------
  // Search text

  /** The four parts of a search text. */
  datatype SearchFields = SearchFields(name: string, domain: string, description: string, perks: string)

  /** The text that is embedded and stored: four labelled lines. The third
      caption is "Description" in frontend.py and "Details" in the other two
      paths. */
  function SearchText(caption: string, f: SearchFields): string {
    "Event: " + f.name + "\n" + "Domain: " + f.domain + "\n" + caption + ": " + f.description + "\n" + "Perks: " + f.perks
  }

  /** The text up to its first line break and the text after it. */
  function CutLine(s: string): Option<(string, string)> {
    if '\n' in s then
      var k := FirstIndex(s, '\n');
      Some((s[..k], s[k + 1..]))
    else None
  }

  lemma CutLineAfter(a: string, b: string)
    requires '\n' !in a
    ensures CutLine(a + "\n" + b) == Some((a, b))
  {
    var s := a + "\n" + b;
    assert s[|a|] == '\n';
    assert s[..|a|] == a;
    assert s[|a| + 1..] == b;
    var k := FirstIndex(s, '\n');
    assert k == |a|;
  }

  /** Reads a search text back into its parts, None when it does not have
      the four labelled lines. */
  function ParseSearchText(caption: string, s: string): Option<SearchFields> {
    match CutLine(s)
    case None => None
    case Some((l0, r0)) =>
      match CutLine(r0)
      case None => None
      case Some((l1, r1)) =>
        match CutLine(r1)
        case None => None
        case Some((l2, r2)) =>
          if StartsWith(l0, "Event: ") && StartsWith(l1, "Domain: ")
             && StartsWith(l2, caption + ": ") && StartsWith(r2, "Perks: ")
          then Some(SearchFields(l0[7..], l1[8..], l2[|caption| + 2..], r2[7..]))
          else None
  }

  /** The fields go into separate lines of the search text. */
  predicate SingleLine(caption: string, f: SearchFields) {
    '\n' !in caption && '\n' !in f.name && '\n' !in f.domain && '\n' !in f.description
  }

  lemma NoBreakAppend(x: string, y: string)
    requires '\n' !in x && '\n' !in y
    ensures '\n' !in x + y
  {
    assert forall i :: 0 <= i < |x + y| ==> (x + y)[i] == if i < |x| then x[i] else y[i - |x|];
  }

  /** The search text determines what was embedded: when the name, domain
      and description are single lines, parsing it gives the parts back,
      whatever the perks hold. */
  lemma SearchTextRoundTrip(caption: string, f: SearchFields)
    requires SingleLine(caption, f)
    ensures ParseSearchText(caption, SearchText(caption, f)) == Some(f)
  {
    var a := "Event: " + f.name;
    var b := "Domain: " + f.domain;
    var c := (caption + ": ") + f.description;
    var d := "Perks: " + f.perks;
    var r1 := c + "\n" + d;
    var r0 := b + "\n" + r1;
    NoBreakAppend("Event: ", f.name);
    NoBreakAppend("Domain: ", f.domain);
    NoBreakAppend(caption, ": ");
    NoBreakAppend(caption + ": ", f.description);
    assert SearchText(caption, f) == a + "\n" + r0;
    CutLineAfter(a, r0);
    CutLineAfter(b, r1);
    CutLineAfter(c, d);
    Prefixed("Event: ", f.name);
    Prefixed("Domain: ", f.domain);
    Prefixed(caption + ": ", f.description);
    Prefixed("Perks: ", f.perks);
  }

  /** A prefix glued to a text is a prefix of the result, and slicing it
      off gives the text back. */
  lemma Prefixed(p: string, x: string)
    ensures StartsWith(p + x, p) && (p + x)[|p|..] == x
  {
    assert (p + x)[..|p|] == p;
  }

  /** Two events whose single-line parts differ never share a search
      text. */
  lemma SearchTextInjective(caption: string, f: SearchFields, g: SearchFields)
    requires SingleLine(caption, f) && SingleLine(caption, g)
    requires SearchText(caption, f) == SearchText(caption, g)
    ensures f == g
  {
    SearchTextRoundTrip(caption, f);
    SearchTextRoundTrip(caption, g);
  }
}

=== FILE: frontend_ingest.dfy ===
/** `add_new_event` of frontend.py: validates the form, takes the process
    lock without waiting, embeds the search text, and inserts the event.
    The embedding model, the database connection and the insert are
    parameters; the lock is a boolean the call receives and hands back. */
module FrontendIngest {
  import opened Wrappers
  import opened Text
  import opened PyValues
  import opened EventRecord

  /** What `model.encode` did with a text. */
  datatype EmbedResult = Embedded(vector: seq<real>) | EmbedFailed(error: string)

  /** The outside world during one call: whether the model loads, what the
      encoder does with a text, whether a connection is obtained, and the
      error the insert raises, if any. */
  datatype Services = Services(
    modelLoads: bool,
    embed: string -> EmbedResult,
    connects: bool,
    insertError: Option<string>)

  /** The returned dictionary: status, message and, on success only, the
      event id. */
  datatype Reply = Reply(status: string, message: string, eventId: Option<PyValue>)

  /** What the call did besides replying: whether it took the lock, the
      text it gave the encoder, whether it opened a connection, and the row
      it committed. */
  datatype Effects = Effects(lockTaken: bool, embedded: Option<string>, connected: bool, stored: Option<InsertRow>)

  datatype Outcome = Outcome(reply: Reply, lockHeldAfter: bool, effects: Effects)

  const NoEffects: Effects := Effects(false, None, false, None)

  const MissingFields: Reply := Reply("error", "Missing required fields", None)
  const Busy: Reply := Reply("busy", "Server busy, try again shortly.", None)
  const ModelFailed: Reply := Reply("error", "Embedding model failed to load", None)
  const NoConnection: Reply := Reply("error", "DB connection failed", None)

  /** The form carries a truthy event name and a truthy description. */
  predicate RequiredPresent(form: Form) {
    Truthy(Get(form, "name_of_event", PyNone)) && Truthy(Get(form, "description_insights", PyNone))
  }

  /** The parts of the search text: missing name, domain and perks read as
      "", a `None` value renders as "None". */
  function Fields(form: Form): SearchFields {
    SearchFields(
      Show(Get(form, "name_of_event", PyStr(""))),
      Show(Get(form, "event_domain", PyStr(""))),
      StoredDescription(form),
      Show(Get(form, "perks", PyStr(""))))
  }

  /** `_make_search_text` of this file: the third line is labelled
      "Description". */
  function MakeSearchText(form: Form): (r: string)
    ensures SingleLine("Description", Fields(form)) ==> ParseSearchText("Description", r) == Some(Fields(form))
  {
    if SingleLine("Description", Fields(form)) then
      SearchTextRoundTrip("Description", Fields(form));
      SearchText("Description", Fields(form))
    else
      SearchText("Description", Fields(form))
  }

  /** The work done while the lock is held. */
  function Process(form: Form, sv: Services): (o: (Reply, Effects))
    ensures o.1.lockTaken && (o.1.embedded.Some? ==> o.1.embedded == Some(MakeSearchText(form)))
    ensures o.1.connected ==> o.1.embedded.Some?
    ensures o.1.stored.Some? ==> o.1.connected
    ensures o.0.status == "success" <==> o.1.stored.Some?
    ensures o.1.stored.Some? ==>
              && sv.embed(MakeSearchText(form)).Embedded?
              && o.1.stored.value
                 == BuildRow(form, StoredDescription(form), MakeSearchText(form), sv.embed(MakeSearchText(form)).vector)
              && o.0.eventId == Some(Get(form, "name_of_event", PyNone))
  {
    assert |"success"| == 7 && |"error"| == 5;
    var text := MakeSearchText(form);
    if !sv.modelLoads then (ModelFailed, Effects(true, None, false, None))
    else
      match sv.embed(text)
      case EmbedFailed(e) => (Reply("error", "Embedding error: " + e, None), Effects(true, Some(text), false, None))
      case Embedded(vector) =>
        if !sv.connects then (NoConnection, Effects(true, Some(text), false, None))
        else
          match sv.insertError
          case Some(e) => (Reply("error", "DB insert failed: " + e, None), Effects(true, Some(text), true, None))
          case None =>
            var row := BuildRow(form, StoredDescription(form), text, vector);
            (Reply("success", "Event saved and indexed", Some(Get(form, "name_of_event", PyNone))),
             Effects(true, Some(text), true, Some(row)))
  }

  /** `add_new_event`. The lock is released on every path that took it, so
      the lock is held afterwards exactly when it was held before. An event
      is stored exactly when the call reports success, and then the stored
      row is the form's row with the stripped description, the search text
      and the vector the encoder returned for exactly that text. */
  function AddNewEvent(form: Form, lockHeld: bool, sv: Services): (o: Outcome)
    ensures o.lockHeldAfter == lockHeld
    ensures o.effects.lockTaken <==> RequiredPresent(form) && !lockHeld
    ensures !RequiredPresent(form) ==> o.reply == MissingFields && o.effects == NoEffects
    ensures RequiredPresent(form) && lockHeld ==> o.reply == Busy && o.effects == NoEffects
    ensures o.reply.status == "success" <==> o.effects.stored.Some?
    ensures o.effects.stored.Some? ==>
              && sv.embed(MakeSearchText(form)).Embedded?
              && o.effects.stored.value
                 == BuildRow(form, StoredDescription(form), MakeSearchText(form), sv.embed(MakeSearchText(form)).vector)
              && o.reply.eventId == Some(Get(form, "name_of_event", PyNone))
  {
    assert |"success"| == 7 && |"error"| == 5 && |"busy"| == 4;
    if !RequiredPresent(form) then Outcome(MissingFields, lockHeld, NoEffects)
    else if lockHeld then Outcome(Busy, lockHeld, NoEffects)
    else
      var (reply, effects) := Process(form, sv);
      Outcome(reply, false, effects)
  }

  /** An event is stored exactly when the form is complete, the lock is
      free, and the model, the encoder, the connection and the insert all
      succeed. */
  lemma StoredExactlyWhenAllSucceed(form: Form, lockHeld: bool, sv: Services)
    ensures AddNewEvent(form, lockHeld, sv).effects.stored.Some? <==>
              && RequiredPresent(form) && !lockHeld && sv.modelLoads
              && sv.embed(MakeSearchText(form)).Embedded? && sv.connects && sv.insertError.None?
  {
  }

  /** A stored event is reported as a success under the form's event name,
      and the row's id is that name. */
  lemma StoredUnderName(form: Form, lockHeld: bool, sv: Services, name: string)
    requires "name_of_event" in form && form["name_of_event"] == PyStr(name)
    requires AddNewEvent(form, lockHeld, sv).effects.stored.Some?
    ensures var o := AddNewEvent(form, lockHeld, sv);
            && o.reply.status == "success" && o.reply.eventId == Some(PyStr(name))
            && o.effects.stored.value.eventId == PyStr(name)
            && o.effects.stored.value.description == StoredDescription(form)
  {
    var o := AddNewEvent(form, lockHeld, sv);
    assert ColumnFor(o.effects.stored.value, EventName) == PyStr(name);
  }

  /** Each failure is reported with its own message, in the order the
      steps run: model, encoder, connection, insert. */
  lemma FailureMessages(form: Form, sv: Services)
    requires RequiredPresent(form)
    ensures var o := AddNewEvent(form, false, sv);
            var e := sv.embed(MakeSearchText(form));
            && (!sv.modelLoads ==> o.reply == ModelFailed)
            && (sv.modelLoads && e.EmbedFailed? ==> o.reply == Reply("error", "Embedding error: " + e.error, None))
            && (sv.modelLoads && e.Embedded? && !sv.connects ==> o.reply == NoConnection)
            && (sv.modelLoads && e.Embedded? && sv.connects && sv.insertError.Some? ==>
                  o.reply == Reply("error", "DB insert failed: " + sv.insertError.value, None))
  {
  }

  /** Each step runs only after the one before it succeeded: nothing is
      embedded when the model does not load, no connection is opened when
      the encoder fails, and nothing is stored without a connection. */
  lemma StepsStopAtFailure(form: Form, lockHeld: bool, sv: Services)
    ensures var e := AddNewEvent(form, lockHeld, sv).effects;
            && (!sv.modelLoads ==> e.embedded.None? && !e.connected && e.stored.None?)
            && (sv.embed(MakeSearchText(form)).EmbedFailed? ==> !e.connected && e.stored.None?)
            && (!sv.connects ==> !e.connected && e.stored.None?)
  {
    var o := AddNewEvent(form, lockHeld, sv);
    if RequiredPresent(form) && !lockHeld {
      var text := MakeSearchText(form);
      var p := Process(form, sv);
      assert o.effects == p.1;
      if !sv.modelLoads {
        assert p.1 == Effects(true, None, false, None);
      } else if sv.embed(text).EmbedFailed? {
        assert p.1 == Effects(true, Some(text), false, None);
      } else if !sv.connects {
        assert p.1 == Effects(true, Some(text), false, None);
      }
    } else {
      assert o.effects == NoEffects;
    }
  }

  /** The stored search text can be read back into the event name, domain,
      stripped description and perks that were embedded, when those are
      single lines. */
  lemma StoredTextReadsBack(form: Form, lockHeld: bool, sv: Services)
    requires AddNewEvent(form, lockHeld, sv).effects.stored.Some?
    requires SingleLine("Description", Fields(form))
    ensures ParseSearchText("Description", AddNewEvent(form, lockHeld, sv).effects.stored.value.searchText)
            == Some(Fields(form))
  {
  }
}

=== FILE: new_event.dfy ===
/** The "Add New Event" page of new_event.py: the submit guard, the final
    event name, the form dictionary sent for ingestion, the time format,
    and how the ingestion reply is turned into a notice. The widgets'
    values, the random hex id and the ingestion function are parameters;
    rendering is left out. */
module NewEvent {
  import opened Wrappers
  import opened Text
  import opened PyValues
  import Report
  import opened EventRecord
  import FrontendIngest

  // ---------------------------------------------------------------------
  // Time of day

  /** A value of the time picker. */
  datatype Clock = Clock(hour: nat, minute: nat)

  predicate ValidClock(c: Clock) {
    c.hour < 24 && c.minute < 60
  }

  /** Two zero-padded decimal digits. */
  function TwoDigits(n: nat): (r: string)
    requires n < 100
    ensures |r| == 2 && IsDigit(r[0]) && IsDigit(r[1])
  {
    [DigitChar(n / 10), DigitChar(n % 10)]
  }

  /** The hour on a twelve-hour clock, 1 to 12. */
  function Hour12(h: nat): (r: nat)
    ensures 1 <= r <= 12 && r % 12 == h % 12
  {
    if h % 12 == 0 then 12 else h % 12
  }

  /** `format_time`: "N/A" without a time, otherwise `%I:%M %p` in the C
      locale, e.g. "07:30 PM". */
  function FormatTime(t: Option<Clock>): (r: string)
    requires t.Some? ==> ValidClock(t.value)
    ensures r == "N/A" <==> t.None?
    ensures t.Some? ==> |r| == 8
  {
    match t
    case None => "N/A"
    case Some(c) => TwoDigits(Hour12(c.hour)) + ":" + TwoDigits(c.minute) + " " + (if c.hour < 12 then "AM" else "PM")
  }

  /** Reads a formatted time back; None for "N/A" and anything else that
      is not a twelve-hour time. */
  function ParseTime(s: string): Option<Clock> {
    if |s| != 8 || !IsDigit(s[0]) || !IsDigit(s[1]) || s[2] != ':' || !IsDigit(s[3]) || !IsDigit(s[4])
       || s[5] != ' ' || (s[6..] != "AM" && s[6..] != "PM")
    then None
    else
      var h := 10 * DigitValue(s[0]) + DigitValue(s[1]);
      var m := 10 * DigitValue(s[3]) + DigitValue(s[4]);
      if h < 1 || h > 12 || m > 59 then None
      else Some(Clock(h % 12 + (if s[6..] == "PM" then 12 else 0), m))
  }

  lemma TwoDigitsValue(n: nat)
    requires n < 100
    ensures 10 * DigitValue(TwoDigits(n)[0]) + DigitValue(TwoDigits(n)[1]) == n
  {
  }

  /** The stored time text determines the picked time, and "N/A" means no
      time was picked. */
  lemma FormatTimeRoundTrip(t: Option<Clock>)
    requires t.Some? ==> ValidClock(t.value)
    ensures ParseTime(FormatTime(t)) == t
  {
    if t.Some? {
      var c := t.value;
      var s := FormatTime(t);
      var hh := TwoDigits(Hour12(c.hour));
      var mm := TwoDigits(c.minute);
      var ap := if c.hour < 12 then "AM" else "PM";
      assert s == hh + ":" + mm + " " + ap;
      assert s[0] == hh[0] && s[1] == hh[1] && s[2] == ':';
      assert s[3] == mm[0] && s[4] == mm[1] && s[5] == ' ';
      assert s[6..] == ap;
      TwoDigitsValue(Hour12(c.hour));
      TwoDigitsValue(c.minute);
    }
  }

  // ---------------------------------------------------------------------
  // Form

  /** The widget values when Submit is pressed. `mode` is the selected mode,
      or the typed one when "Other" was selected; `date` is the picked date
      as year, month and day. */
  datatype PageInputs = PageInputs(
    eventId: string,
    title: string,
    domain: string,
    description: string,
    perks: string,
    date: (nat, nat, nat),
    time: Option<Clock>,
    venue: string,
    mode: string,
    fee: string,
    speakers: string,
    faculty: string,
    students: string)

  predicate ValidInputs(p: PageInputs) {
    p.time.Some? ==> ValidClock(p.time.value)
  }

  /** The page refuses to submit without a description, or without both an
      event id and a title; whitespace counts as input here. */
  predicate SubmitRejected(p: PageInputs) {
    p.description == "" || (p.eventId == "" && p.title == "")
  }

  /** The name before spaces are replaced: the stripped event id, else the
      stripped title, else "event_" and the first eight hex digits of a
      fresh UUID. */
  function BaseName(p: PageInputs, hex: string): (b: string)
    requires |hex| == 32
    ensures b != []
  {
    if Strip(p.eventId) != "" then Strip(p.eventId)
    else if Strip(p.title) != "" then Strip(p.title)
    else "event_" + hex[..8]
  }

  /** A name with every space turned into "_", cut to 150 characters;
      never empty when the name is not, and never containing a space. */
  function Slug(b: string): (n: string)
    ensures |n| == (if |b| < 150 then |b| else 150)
    ensures forall i :: 0 <= i < |n| ==> n[i] == if b[i] == ' ' then '_' else b[i]
    ensures |n| <= 150 && ' ' !in n && (b != [] ==> n != [])
  {
    var r := ReplaceChar(b, ' ', '_');
    var n := Take(r, 150);
    assert forall i :: 0 <= i < |n| ==> n[i] == r[i];
    assert forall i :: 0 <= i < |n| ==> n[i] != ' ';
    n
  }

  /** `final_name`: the slug of the base name. */
  function FinalName(p: PageInputs, hex: string): (n: string)
    requires |hex| == 32
    ensures n != [] && |n| <= 150 && ' ' !in n
  {
    Slug(BaseName(p, hex))
  }

  /** A name that already has no space and fits is kept as it is. */
  lemma SlugKeepsSlugs(b: string)
    requires ' ' !in b && |b| <= 150
    ensures Slug(b) == b
  {
    var n := Slug(b);
    forall i | 0 <= i < |n|
      ensures n[i] == b[i]
    {
      assert b[i] in b;
    }
  }

  /** Where the final name comes from: the stripped event id when there is
      one, else the stripped title, else "event_" and the first eight hex
      digits; a source that is already a slug is sent unchanged. */
  lemma FinalNameChoice(p: PageInputs, hex: string)
    requires |hex| == 32
    ensures Strip(p.eventId) != "" ==> FinalName(p, hex) == Slug(Strip(p.eventId))
    ensures Strip(p.eventId) == "" && Strip(p.title) != "" ==> FinalName(p, hex) == Slug(Strip(p.title))
    ensures Strip(p.eventId) == "" && Strip(p.title) == "" ==> FinalName(p, hex) == Slug("event_" + hex[..8])
    ensures Strip(p.eventId) != "" && ' ' !in Strip(p.eventId) && |Strip(p.eventId)| <= 150 ==>
              FinalName(p, hex) == Strip(p.eventId)
    ensures Strip(p.eventId) == "" && Strip(p.title) == "" && ' ' !in hex ==>
              FinalName(p, hex) == "event_" + hex[..8]
  {
    var id := Strip(p.eventId);
    if id != "" && ' ' !in id && |id| <= 150 {
      SlugKeepsSlugs(id);
    }
    if id == "" && Strip(p.title) == "" && ' ' !in hex {
      var b := "event_" + hex[..8];
      forall i | 0 <= i < |b|
        ensures b[i] != ' '
      {
        if i >= 6 {
          assert b[i] == hex[i - 6] && hex[i - 6] in hex;
        }
      }
      SlugKeepsSlugs(b);
    }
  }

  /** `date_of_event.strftime("%Y-%m-%d")`. */
  function DateText(d: (nat, nat, nat)): string {
    Report.Render(Report.Date(d.0, d.1, d.2))
  }

  /** The value `form_data` holds under a column's key: the final name,
      the stripped domain, the date and time texts, the optional text
      fields stripped and `None` when blank, the mode `None` only when
      empty, and the fee "0" when blank. */
  function SentValue(p: PageInputs, name: string, f: Field): PyValue
    requires ValidInputs(p)
  {
    match f
    case EventName => PyStr(name)
    case Domain => PyStr(Strip(p.domain))
    case Date => PyStr(DateText(p.date))
    case Time => PyStr(FormatTime(p.time))
    case Faculty => NoneIfEmpty(Strip(p.faculty))
    case Students => NoneIfEmpty(Strip(p.students))
    case Venue => NoneIfEmpty(Strip(p.venue))
    case Mode => NoneIfEmpty(p.mode)
    case Fee => PyStr(if Strip(p.fee) == "" then "0" else Strip(p.fee))
    case Speakers => NoneIfEmpty(Strip(p.speakers))
    case Perks => NoneIfEmpty(Strip(p.perks))
  }

  /** `form_data`: one entry per column key and the stripped description,
      and nothing else. */
  function FormData(p: PageInputs, name: string): (form: Form)
    requires ValidInputs(p)
    ensures forall f: Field :: Key(f) in form && form[Key(f)] == SentValue(p, name, f)
    ensures DescriptionKey in form && form[DescriptionKey] == PyStr(Strip(p.description))
  {
    KeysDistinct();
    var columns := map f | f in AllFields :: Key(f) := SentValue(p, name, f);
    columns[DescriptionKey := PyStr(Strip(p.description))]
  }

  /** `form_data` has no key besides the twelve: the eleven column keys and
      the description's. */
  lemma FormKeysExactly(p: PageInputs, name: string, k: string)
    requires ValidInputs(p)
    ensures k in FormData(p, name) <==> k == DescriptionKey || exists f: Field :: k == Key(f)
  {
    KeysDistinct();
  }

  /** How an optional text widget is sent: `None` exactly when it is blank
      once stripped, the stripped text otherwise. */
  predicate SentStripped(v: PyValue, typed: string) {
    (v == PyNone <==> Strip(typed) == "") && (v.PyStr? ==> v.s == Strip(typed))
  }

  /** The text typed into the widget behind a column the page sends
      stripped and as `None` when blank. */
  function WidgetText(p: PageInputs, f: Field): string {
    match f
    case Venue => p.venue
    case Speakers => p.speakers
    case Perks => p.perks
    case Faculty => p.faculty
    case Students => p.students
    case _ => ""
  }

  /** Venue, speakers, perks and the two coordinator lists are sent
      stripped, as `None` exactly when blank. */
  lemma OptionalFieldSent(p: PageInputs, name: string, f: Field)
    requires ValidInputs(p) && f in {Venue, Speakers, Perks, Faculty, Students}
    ensures SentStripped(SentValue(p, name, f), WidgetText(p, f))
  {
    assert SentValue(p, name, f) == NoneIfEmpty(Strip(WidgetText(p, f)));
    StrippedOrNone(WidgetText(p, f));
  }

  lemma StrippedOrNone(typed: string)
    ensures SentStripped(NoneIfEmpty(Strip(typed)), typed)
  {
  }

  /** The mode is sent as selected or typed, as `None` only when empty;
      the fee is always sent as text: "0" when it is blank once stripped,
      the stripped text otherwise. */
  lemma ModeAndFeeSent(p: PageInputs, name: string)
    requires ValidInputs(p)
    ensures SentValue(p, name, Mode) == PyNone <==> p.mode == ""
    ensures SentValue(p, name, Mode).PyStr? ==> SentValue(p, name, Mode).s == p.mode
    ensures SentValue(p, name, Fee).PyStr?
    ensures Strip(p.fee) == "" ==> SentValue(p, name, Fee).s == "0"
    ensures Strip(p.fee) != "" ==> SentValue(p, name, Fee).s == Strip(p.fee)
  {
  }

  /** The name is sent as given, the domain stripped, the date as
      `%Y-%m-%d`, and the time as text that reads back as the picked time
      ("N/A" for none). */
  lemma NameDomainDateTimeSent(p: PageInputs, name: string)
    requires ValidInputs(p)
    ensures SentValue(p, name, EventName) == PyStr(name)
    ensures SentValue(p, name, Domain) == PyStr(Strip(p.domain))
    ensures SentValue(p, name, Date) == PyStr(DateText(p.date))
    ensures SentValue(p, name, Time).PyStr? && ParseTime(SentValue(p, name, Time).s) == p.time
  {
    FormatTimeRoundTrip(p.time);
  }

  // ---------------------------------------------------------------------
  // Submission

  /** What the ingestion function returned: a dictionary, a string,
      anything else (with its printed form), or an exception's text. */
  datatype IngestResult =
    | DictResult(d: map<string, PyValue>)
    | TextResult(s: string)
    | OtherResult(shown: string)
    | Raised(error: string)

  /** The notice the page shows. */
  datatype Notice =
    | InProgress
    | NeedTitleAndDescription
    | NotAvailable
    | Saved(eventId: string)
    | ServerBusy(message: string)
    | Failed(detail: string)
    | Unexpected

  /** The reply of a dictionary-returning ingestion function: the status
      selects the notice; a saved event is named by the returned id when it
      is truthy, else by the final name. */
  function DictNotice(d: map<string, PyValue>, finalName: string): (n: Notice)
    ensures n.Saved? <==> Get(d, "status", PyNone) == PyStr("success")
    ensures n.Saved? && finalName != "" ==> n.eventId != ""
    ensures n.Saved? && !Truthy(Get(d, "event_id", PyNone)) ==> n.eventId == finalName
    ensures Get(d, "status", PyNone) == PyStr("busy") ==> n == ServerBusy(Show(Get(d, "message", PyStr(""))))
    ensures Get(d, "status", PyNone) == PyStr("error") ==> n == Failed(Show(Get(d, "message", PyStr(""))))
    ensures n == Unexpected <==> Get(d, "status", PyNone) !in {PyStr("success"), PyStr("busy"), PyStr("error")}
  {
    var status := Get(d, "status", PyNone);
    var message := Get(d, "message", PyStr(""));
    var eventId := Get(d, "event_id", PyNone);
    if status == PyStr("success") then Saved(if Truthy(eventId) then eventId.s else finalName)
    else if status == PyStr("busy") then ServerBusy(Show(message))
    else if status == PyStr("error") then Failed(Show(message))
    else Unexpected
  }

  /** The notice for any ingestion result. A raised exception is reported
      as the error dictionary the page builds for it; a string counts as
      success when, lower-cased, it starts with "success". */
  function ResultNotice(r: IngestResult, finalName: string): (n: Notice)
    ensures n.Saved? && finalName != "" ==> n.eventId != ""
    ensures r.Raised? ==> n == Failed("Ingestion function raised: " + r.error)
    ensures r.DictResult? ==> n == DictNotice(r.d, finalName)
    ensures r.TextResult? ==> (n.Saved? <==> StartsWith(Lower(r.s), "success"))
    ensures r.TextResult? ==> if n.Saved? then n == Saved(finalName) else n == Failed(r.s)
    ensures r.OtherResult? ==> n == Failed(r.shown)
  {
    match r
    case DictResult(d) => DictNotice(d, finalName)
    case Raised(e) => DictNotice(map["status" := PyStr("error"), "message" := PyStr("Ingestion function raised: " + e)], finalName)
    case TextResult(s) => if StartsWith(Lower(s), "success") then Saved(finalName) else Failed(s)
    case OtherResult(shown) => Failed(shown)
  }

  /** The outcome of pressing Submit: the notice, the `submitting` flag
      afterwards, and the form dictionary handed to ingestion, if any. */
  datatype Submission = Submission(notice: Notice, submittingAfter: bool, sent: Option<Form>)

  /** Pressing Submit. `ingest` is None when `add_new_event` could not be
      imported. The flag is set while the submission runs and reset in
      `finally`, so it is never left set by this page. */
  function Submit(submitting: bool, p: PageInputs, hex: string, ingest: Option<Form -> IngestResult>): (s: Submission)
    requires ValidInputs(p) && |hex| == 32
    ensures s.submittingAfter == submitting
    ensures submitting ==> s == Submission(InProgress, true, None)
    ensures !submitting && SubmitRejected(p) ==> s.notice == NeedTitleAndDescription && s.sent.None?
    ensures s.sent.Some? <==> !submitting && !SubmitRejected(p) && ingest.Some?
    ensures s.sent.Some? ==> s.sent.value == FormData(p, FinalName(p, hex))
    ensures s.notice.Saved? ==> s.notice.eventId != ""
  {
    if submitting then Submission(InProgress, true, None)
    else if SubmitRejected(p) then Submission(NeedTitleAndDescription, false, None)
    else
      var name := FinalName(p, hex);
      var form := FormData(p, name);
      assert name != "";
      match ingest
      case None => Submission(NotAvailable, false, None)
      case Some(f) => Submission(ResultNotice(f(form), name), false, Some(form))
  }

  // ---------------------------------------------------------------------
  // The page with frontend.py behind it

  /** The dictionary frontend.py returns, as the page reads it. */
  function AsResult(r: FrontendIngest.Reply): IngestResult {
    var base := map["status" := PyStr(r.status), "message" := PyStr(r.message)];
    DictResult(if r.eventId.Some? then base["event_id" := r.eventId.value] else base)
  }

  /** The ingestion function of frontend.py with the lock free and the
      given services. */
  function Frontend(sv: FrontendIngest.Services): Form -> IngestResult {
    (f: Form) => AsResult(FrontendIngest.AddNewEvent(f, false, sv).reply)
  }

  /** How the page reads a reply of frontend.py: the status picks the
      notice, and a saved event is named by the returned event id when that
      is a non-empty string, else by the final name. */
  lemma FrontendNotice(r: FrontendIngest.Reply, finalName: string)
    ensures var n := ResultNotice(AsResult(r), finalName);
            && (r.status == "success" ==>
                  n == Saved(if r.eventId.Some? && Truthy(r.eventId.value) then r.eventId.value.s else finalName))
            && (r.status == "busy" ==> n == ServerBusy(r.message))
            && (r.status == "error" ==> n == Failed(r.message))
            && (r.status !in {"success", "busy", "error"} ==> n == Unexpected)
  {
    assert |"status"| == 6 && |"message"| == 7 && |"event_id"| == 8;
    var base := map["status" := PyStr(r.status), "message" := PyStr(r.message)];
    var d := if r.eventId.Some? then base["event_id" := r.eventId.value] else base;
    assert Get(d, "status", PyNone) == PyStr(r.status);
    assert Get(d, "message", PyStr("")) == PyStr(r.message);
    assert Get(d, "event_id", PyNone) == if r.eventId.Some? then r.eventId.value else PyNone;
  }


  /** A description of blanks gets past the page, which only checks for an
      empty field, but is stripped to "" before it is sent, so frontend.py
      turns the event away as incomplete and nothing is stored. */
  lemma BlankDescriptionRejectedDownstream(p: PageInputs, hex: string, sv: FrontendIngest.Services)
    requires ValidInputs(p) && |hex| == 32
    requires p.description != "" && Strip(p.description) == ""
    requires p.eventId != "" || p.title != ""
    ensures Submit(false, p, hex, Some(Frontend(sv))).notice == Failed("Missing required fields")
  {
    var name := FinalName(p, hex);
    var form := FormData(p, name);
    assert !FrontendIngest.RequiredPresent(form);
    var o := FrontendIngest.AddNewEvent(form, false, sv);
    assert o.reply == FrontendIngest.MissingFields;
    FrontendNotice(o.reply, name);
  }

  /** A complete submission that frontend.py stores is reported as saved
      under the final name, and the stored row carries that name as its id
      and the stripped description. */
  lemma SavedUnderFinalName(p: PageInputs, hex: string, sv: FrontendIngest.Services)
    requires ValidInputs(p) && |hex| == 32 && !SubmitRejected(p)
    requires FrontendIngest.AddNewEvent(FormData(p, FinalName(p, hex)), false, sv).effects.stored.Some?
    ensures Submit(false, p, hex, Some(Frontend(sv))).notice == Saved(FinalName(p, hex))
    ensures var row := FrontendIngest.AddNewEvent(FormData(p, FinalName(p, hex)), false, sv).effects.stored.value;
            row.eventId == PyStr(FinalName(p, hex)) && row.description == Strip(p.description)
  {
    var name := FinalName(p, hex);
    var form := FormData(p, name);
    assert form[Key(EventName)] == PyStr(name);
    FrontendIngest.StoredUnderName(form, false, sv, name);
    var o := FrontendIngest.AddNewEvent(form, false, sv);
    assert Submit(false, p, hex, Some(Frontend(sv))).notice == ResultNotice(AsResult(o.reply), name);
    FrontendNotice(o.reply, name);
    assert name != "" && Truthy(o.reply.eventId.value);
    StoredDescriptionIsStripped(form, p.description);
  }

  /** The stored description of a form holding a stripped description is
      that description: stripping twice strips once. */
  lemma StoredDescriptionIsStripped(form: Form, typed: string)
    requires DescriptionKey in form && form[DescriptionKey] == PyStr(Strip(typed))
    ensures StoredDescription(form) == Strip(typed)
  {
    assert Get(form, DescriptionKey, PyStr("")) == PyStr(Strip(typed));
    TrimIdempotent(typed, IsPySpace);
  }

  /** Blank perks are sent as `None`, which frontend.py writes into the
      search text as the word "None". */
  lemma BlankPerksEmbeddedAsNone(p: PageInputs, name: string)
    requires ValidInputs(p) && Strip(p.perks) == ""
    ensures FrontendIngest.Fields(FormData(p, name)).perks == "None"
  {
    var form := FormData(p, name);
    assert form[Key(Perks)] == PyNone;
    assert Key(Perks) == "perks";
    assert Get(form, "perks", PyStr("")) == PyNone;
  }
}

=== FILE: query_pipeline.dfy ===
/** The question-answering pipeline of backend/query_pipeline.py: year
    extraction, mapping the classifier's reply to an intent, the fallback
    for the requested attribute list, the builders over retrieved passages,
    the line filter for single-event answers, and the intent dispatch. The
    language model's replies, the database rows and the retrieved passages
    are parameters. */
module QueryPipeline {
  import opened Wrappers
  import opened Text
  import opened JsonValues
  import opened Report

  // ---------------------------------------------------------------------
  // Year extraction

  /** A match of the pattern `20\d{2}` starts at index `i`. */
  predicate YearAt(s: string, i: int) {
    0 <= i && i + 4 <= |s| && s[i] == '2' && s[i + 1] == '0' && IsDigit(s[i + 2]) && IsDigit(s[i + 3])
  }

  /** The integer the match at `i` spells. */
  function YearValue(s: string, i: int): int
    requires YearAt(s, i)
  {
    2000 + 10 * DigitValue(s[i + 2]) + DigitValue(s[i + 3])
  }

  /** The leftmost match at or after index `i`, as `re.search` scans. */
  function FirstYearFrom(s: string, i: nat): (r: Option<nat>)
    ensures r.Some? ==> i <= r.value && YearAt(s, r.value)
    ensures r.Some? ==> forall j :: i <= j < r.value ==> !YearAt(s, j)
    ensures r.None? ==> forall j :: i <= j ==> !YearAt(s, j)
    decreases |s| - i
  {
    if i + 4 > |s| then None
    else if YearAt(s, i) then Some(i)
    else FirstYearFrom(s, i + 1)
  }

  /** `_extract_year`: the first `20dd` in the text, read as an integer, so
      always within 2000..2099; the current year, a parameter here, when
      there is none. */
  function ExtractYear(text: string, currentYear: int): (y: int)
    ensures (forall i :: !YearAt(text, i)) ==> y == currentYear
    ensures (exists i :: YearAt(text, i)) ==>
              && 2000 <= y <= 2099
              && exists i :: YearAt(text, i) && y == YearValue(text, i)
                             && forall j :: 0 <= j < i ==> !YearAt(text, j)
  {
    match FirstYearFrom(text, 0)
    case Some(i) => YearValue(text, i)
    case None => currentYear
  }

  /** The worked example: "list all events in 2024" names the year 2024,
      whatever the clock says. */
  lemma ExtractYearExample(currentYear: int)
    ensures ExtractYear("list all events in 2024", currentYear) == 2024
  {
    var s := "list all events in 2024";
    assert YearAt(s, 19);
    forall j | 0 <= j < 19
      ensures !YearAt(s, j)
    {
      assert s[j] != '2';
    }
  }

  // ---------------------------------------------------------------------
  // Intent labels

  datatype Intent = Multi | Single | Analytics | Filter | Describe | Recommend

  /** The label the classifier is asked to answer with. */
  function Label(i: Intent): string {
    match i
    case Multi => "MULTI"
    case Single => "SINGLE"
    case Analytics => "ANALYTICS"
    case Filter => "FILTER"
    case Describe => "DESCRIBE"
    case Recommend => "RECOMMEND"
  }

  /** Position in the order the labels are checked; SINGLE is the default
      and comes last. */
  function Priority(i: Intent): nat {
    match i
    case Multi => 0
    case Analytics => 1
    case Filter => 2
    case Describe => 3
    case Recommend => 4
    case Single => 5
  }

  /** The labels other than SINGLE, in the order they are checked. */
  const Ranked: seq<Intent> := [Multi, Analytics, Filter, Describe, Recommend]

  /** The reply as it is searched: stripped and upper-cased. */
  function Normalised(reply: string): string {
    Upper(Strip(reply))
  }

  /** The normalised reply mentions the label of `i`. */
  predicate Mentions(u: string, i: Intent) {
    Contains(u, Label(i))
  }

  /** The first label from rank `k` on that the text mentions. */
  function FirstMentioned(u: string, k: nat): (i: Intent)
    requires k <= |Ranked|
    ensures i != Single ==> k <= Priority(i) && Mentions(u, i)
    ensures forall j: Intent :: k <= Priority(j) < Priority(i) ==> !Mentions(u, j)
    decreases |Ranked| - k
  {
    if k == |Ranked| then Single
    else if Mentions(u, Ranked[k]) then Ranked[k]
    else FirstMentioned(u, k + 1)
  }

  /** The label mapping of `_detect_intent`: the first label, in priority
      order, that occurs in the stripped, upper-cased reply; SINGLE when
      none does, whatever else the reply says. */
  function IntentOfReply(reply: string): (i: Intent)
    ensures i != Single ==> Mentions(Normalised(reply), i)
    ensures forall j: Intent :: Priority(j) < Priority(i) ==> !Mentions(Normalised(reply), j)
  {
    FirstMentioned(Normalised(reply), 0)
  }

  lemma {:induction false} UpperOfCapitals(s: string)
    requires forall k :: 0 <= k < |s| ==> 'A' <= s[k] <= 'Z'
    ensures Upper(s) == s
    decreases |s|
  {
    if s != [] {
      UpperOfCapitals(s[1..]);
      assert s == [s[0]] + s[1..];
    }
  }

  lemma OccurrenceHead(s: string, sub: string, k: int)
    requires |sub| >= 2 && 0 <= k <= |s| - |sub|
    ensures OccursAt(s, sub, k) ==> s[k] == sub[0] && s[k + 1] == sub[1]
  {
    assert s[k..k + |sub|][0] == s[k];
    assert s[k..k + |sub|][1] == s[k + 1];
  }

  /** A text in which the first two characters of `sub` never appear side
      by side does not contain `sub`. */
  lemma NotContains(s: string, sub: string)
    requires |sub| >= 2
    requires forall k :: 0 <= k <= |s| - |sub| ==> s[k] != sub[0] || s[k + 1] != sub[1]
    ensures !Contains(s, sub)
  {
    forall k | 0 <= k <= |s| - |sub|
      ensures !OccursAt(s, sub, k)
    {
      OccurrenceHead(s, sub, k);
    }
  }

  /** No label contains a label checked before it. */
  lemma LabelsDistinct()
    ensures forall j: Intent, i: Intent :: Priority(j) < Priority(i) ==> !Mentions(Label(i), j)
  {
    NotContains("ANALYTICS", "MULTI");
    NotContains("FILTER", "MULTI");
    NotContains("FILTER", "ANALYTICS");
    NotContains("DESCRIBE", "MULTI");
    NotContains("DESCRIBE", "ANALYTICS");
    NotContains("DESCRIBE", "FILTER");
    NotContains("RECOMMEND", "MULTI");
    NotContains("RECOMMEND", "ANALYTICS");
    NotContains("RECOMMEND", "FILTER");
    NotContains("RECOMMEND", "DESCRIBE");
    NotContains("SINGLE", "MULTI");
    NotContains("SINGLE", "ANALYTICS");
    NotContains("SINGLE", "FILTER");
    NotContains("SINGLE", "DESCRIBE");
    NotContains("SINGLE", "RECOMMEND");
  }

  /** A label is its own normalised form. */
  lemma LabelNormalised(i: Intent)
    ensures Normalised(Label(i)) == Label(i)
  {
    var l := Label(i);
    assert !IsPySpace(l[0]) && !IsPySpace(l[|l| - 1]);
    UpperOfCapitals(l);
  }

  /** A classifier that answers with exactly a label is understood as that
      intent: the mapping is a left inverse of Label. */
  lemma LabelRoundTrip(i: Intent)
    ensures IntentOfReply(Label(i)) == i
  {
    var l := Label(i);
    LabelNormalised(i);
    assert Mentions(l, i) by {
      assert OccursAt(l, l, 0);
    }
    LabelsDistinct();
    FirstMentionedIsEarliest(l, i);
  }

  /** The scan picks `i` when the text mentions `i` and no label checked
      before it. */
  lemma FirstMentionedIsEarliest(u: string, i: Intent)
    requires Mentions(u, i) || i == Single
    requires forall j: Intent :: Priority(j) < Priority(i) ==> !Mentions(u, j)
    ensures FirstMentioned(u, 0) == i
  {
    var r := FirstMentioned(u, 0);
    assert Priority(r) <= Priority(i);
    assert Priority(r) == Priority(i);
  }

  // ---------------------------------------------------------------------
  // Requested attributes

  /** The fallback of `_extract_fields`: `parsed` is the model's reply
      after `json.loads`, None when the call or the parse raised. The list
      is used only when it is a non-empty list; otherwise `["all"]`. */
  function ExtractFields(parsed: Option<Json>): (fields: seq<Json>)
    ensures fields != []
    ensures fields == [JStr("all")] || parsed == Some(JArray(fields))
    ensures (parsed.Some? && parsed.value.JArray? && parsed.value.items != []) <==> parsed == Some(JArray(fields))
  {
    match parsed
    case Some(JArray(items)) => if items != [] then items else [JStr("all")]
    case _ => [JStr("all")]
  }

  // ---------------------------------------------------------------------
  // Builders over retrieved passages

  /** The retriever found nothing: no passage, or its first passage is the
      "No matches" marker. */
  predicate NoMatches(ctx: seq<string>) {
    ctx == [] || Contains(ctx[0], "No matches")
  }

  lemma JoinHasBreak(parts: seq<string>)
    requires |parts| >= 2
    ensures |parts[0]| < |Join("\n", parts)| && Join("\n", parts)[|parts[0]|] == '\n'
  {
    assert Join("\n", parts) == parts[0] + "\n" + Join("\n", parts[1..]);
  }

  lemma SentinelContainsMarker(msg: string)
    requires msg == "No matches."
    ensures Contains(msg, "No matches")
  {
    assert OccursAt(msg, "No matches", 0);
  }

  /** `_build_filtered`: every passage, one after another; the fixed
      message when there is nothing, and only then. */
  function BuildFiltered(ctx: seq<string>): (r: string)
    ensures r == "No matches." <==> NoMatches(ctx)
  {
    if NoMatches(ctx) then "No matches."
    else
      JoinIsNotSentinel(ctx);
      Join("\n", ctx)
  }

  lemma JoinIsNotSentinel(ctx: seq<string>)
    requires !NoMatches(ctx)
    ensures Join("\n", ctx) != "No matches."
  {
    SentinelContainsMarker("No matches.");
    if |ctx| >= 2 {
      JoinHasBreak(ctx);
    }
  }

  /** A text that lacks one character of `sub` does not contain `sub`. */
  lemma MissingCharacter(s: string, sub: string, d: nat)
    requires d < |sub| && sub[d] !in s
    ensures !Contains(s, sub)
  {
    forall k | 0 <= k <= |s| - |sub|
      ensures !OccursAt(s, sub, k)
    {
      assert s[k + d] in s;
    }
  }

  /** `_build_description`: the best passage alone. The "No matches"
      marker never reaches the user. */
  function BuildDescription(ctx: seq<string>): (r: string)
    ensures !NoMatches(ctx) ==> r == ctx[0]
    ensures !Contains(r, "No matches")
  {
    if NoMatches(ctx) then
      MissingCharacter("No details found.", "No matches", 3);
      "No details found."
    else ctx[0]
  }

  /** `ctx[:3]`. */
  function FirstThree(ctx: seq<string>): (r: seq<string>)
    ensures |r| == if |ctx| < 3 then |ctx| else 3
    ensures r == ctx[..|r|]
  {
    if |ctx| <= 3 then ctx else ctx[..3]
  }

  /** `_build_recommend`: at most the first three passages, led by the
      best one. */
  function BuildRecommend(ctx: seq<string>): (r: string)
    ensures NoMatches(ctx) ==> r == "No recommended events found."
    ensures !NoMatches(ctx) ==> StartsWith(r, ctx[0])
  {
    if NoMatches(ctx) then "No recommended events found."
    else
      var top := FirstThree(ctx);
      assert top[0] == ctx[0];
      if |top| >= 2 then
        assert Join("\n", top) == ctx[0] + ("\n" + Join("\n", top[1..]));
        Join("\n", top)
      else
        Join("\n", top)
  }

  /** With nothing retrieved, every builder answers with its fixed message. */
  lemma NoMatchMessages(ctx: seq<string>, parsed: Option<Json>)
    requires NoMatches(ctx)
    ensures BuildFiltered(ctx) == "No matches."
    ensures BuildDescription(ctx) == "No details found."
    ensures BuildRecommend(ctx) == "No recommended events found."
    ensures SingleAnswer(ctx, parsed) == "Not found."
  {
  }

  /** A recommendation is the filtered answer over the first three
      passages, and when passages are single lines it splits back into at
      most three of them, in retrieval order. */
  lemma {:induction false} RecommendIsFirstThree(ctx: seq<string>)
    requires !NoMatches(ctx)
    ensures BuildRecommend(ctx) == BuildFiltered(FirstThree(ctx))
    ensures (forall i :: 0 <= i < |ctx| ==> '\n' !in ctx[i]) ==>
              Split(BuildRecommend(ctx), '\n') == FirstThree(ctx)
  {
    assert FirstThree(ctx)[0] == ctx[0];
    if forall i :: 0 <= i < |ctx| ==> '\n' !in ctx[i] {
      SplitJoin(FirstThree(ctx), '\n');
    }
  }

  /** The filtered answer of single-line passages splits back into exactly
      the passages, in retrieval order. */
  lemma FilteredSplitsBack(ctx: seq<string>)
    requires !NoMatches(ctx)
    requires forall i :: 0 <= i < |ctx| ==> '\n' !in ctx[i]
    ensures Split(BuildFiltered(ctx), '\n') == ctx
  {
    SplitJoin(ctx, '\n');
  }

  // ---------------------------------------------------------------------
  // Single-event answers

  /** The labels `_single` looks for, in the order it tests them. */
  const FieldLabels: seq<string> := ["name", "domain", "date", "time", "venue", "details"]

  /** The line carries `label:` (compared in lower case) and the label was
      requested. */
  predicate Matches(line: string, tag: string, fields: seq<Json>) {
    Contains(Lower(line), tag + ":") && JStr(tag) in fields
  }

  /** How many of the labels, from index `k` on, the line matches. */
  function MatchCount(line: string, fields: seq<Json>, k: nat): (c: nat)
    requires k <= |FieldLabels|
    ensures c <= |FieldLabels| - k
    decreases |FieldLabels| - k
  {
    if k == |FieldLabels| then 0
    else (if Matches(line, FieldLabels[k], fields) then 1 else 0) + MatchCount(line, fields, k + 1)
  }

  /** A line is counted zero times exactly when it matches none of the
      labels from index `k` on. */
  lemma {:induction false} MatchCountZero(line: string, fields: seq<Json>, k: nat)
    requires k <= |FieldLabels|
    ensures MatchCount(line, fields, k) == 0 <==> forall j :: k <= j < |FieldLabels| ==> !Matches(line, FieldLabels[j], fields)
    decreases |FieldLabels| - k
  {
    if k < |FieldLabels| {
      MatchCountZero(line, fields, k + 1);
    }
  }

  /** `n` copies of the line. */
  function Repeat(line: string, n: nat): (r: seq<string>)
    ensures |r| == n
  {
    if n == 0 then [] else [line] + Repeat(line, n - 1)
  }

  /** The copies hold the line and nothing else. */
  lemma {:induction false} RepeatMembers(line: string, n: nat, y: string)
    ensures y in Repeat(line, n) <==> n > 0 && y == line
  {
    if n > 0 {
      RepeatMembers(line, n - 1, y);
      assert Repeat(line, n) == [line] + Repeat(line, n - 1);
    }
  }

  /** Each line replaced by the lines `f` gives for it, in order. */
  function Expand(lines: seq<string>, f: string -> seq<string>): seq<string>
    decreases |lines|
  {
    if lines == [] then [] else f(lines[0]) + Expand(lines[1..], f)
  }

  lemma {:induction false} ExpandAppend(a: seq<string>, b: seq<string>, f: string -> seq<string>)
    ensures Expand(a + b, f) == Expand(a, f) + Expand(b, f)
    decreases |a|
  {
    if a == [] {
      assert a + b == b;
    } else {
      ExpandAppend(a[1..], b, f);
      var ab := a + b;
      assert ab[0] == a[0] && ab[1..] == a[1..] + b;
      assert Expand(ab, f) == f(a[0]) + Expand(a[1..] + b, f);
      AppendAssoc(f(a[0]), Expand(a[1..], f), Expand(b, f));
    }
  }

  lemma AppendAssoc(x: seq<string>, y: seq<string>, z: seq<string>)
    ensures x + (y + z) == (x + y) + z
  {
  }

  lemma {:induction false} ExpandMembers(lines: seq<string>, f: string -> seq<string>, x: string)
    ensures x in Expand(lines, f) <==> exists i :: 0 <= i < |lines| && x in f(lines[i])
    decreases |lines|
  {
    if lines != [] {
      ExpandMembers(lines[1..], f, x);
      assert Expand(lines, f) == f(lines[0]) + Expand(lines[1..], f);
      assert forall i :: 1 <= i < |lines| ==> lines[i] == lines[1..][i - 1];
      if x in Expand(lines[1..], f) {
        var i :| 0 <= i < |lines[1..]| && x in f(lines[1..][i]);
        assert x in f(lines[i + 1]);
      }
    }
  }

  /** The copies of a line the filter loop appends: one per requested
      label the line carries. */
  function Copies(fields: seq<Json>): string -> seq<string> {
    line => Repeat(line, MatchCount(line, fields, 0))
  }

  /** The copies of each line are there exactly for the lines that carry a
      requested label. */
  lemma CopiesMembership(lines: seq<string>, fields: seq<Json>)
    ensures forall x :: x in Expand(lines, Copies(fields)) <==> x in lines && MatchCount(x, fields, 0) > 0
  {
    forall x
      ensures x in Expand(lines, Copies(fields)) <==> x in lines && MatchCount(x, fields, 0) > 0
    {
      CopiesMember(lines, fields, x);
    }
  }

  lemma CopiesMember(lines: seq<string>, fields: seq<Json>, x: string)
    ensures x in Expand(lines, Copies(fields)) <==> x in lines && MatchCount(x, fields, 0) > 0
  {
    var f := Copies(fields);
    ExpandMembers(lines, f, x);
    if x in Expand(lines, f) {
      var i :| 0 <= i < |lines| && x in f(lines[i]);
      assert f(lines[i]) == Repeat(lines[i], MatchCount(lines[i], fields, 0));
      RepeatMembers(lines[i], MatchCount(lines[i], fields, 0), x);
    }
    if x in lines && MatchCount(x, fields, 0) > 0 {
      var i :| 0 <= i < |lines| && lines[i] == x;
      assert f(x) == Repeat(x, MatchCount(x, fields, 0));
      RepeatMembers(x, MatchCount(x, fields, 0), x);
      assert x in f(lines[i]);
    }
  }

  /** The lines the filter loop appends: each line once per requested label
      it carries, lines kept in their original order. A line is in the
      output exactly when it is one of the input lines and carries at least
      one requested label. */
  function KeptLines(lines: seq<string>, fields: seq<Json>): (r: seq<string>)
    ensures forall x :: x in r <==> x in lines && MatchCount(x, fields, 0) > 0
  {
    CopiesMembership(lines, fields);
    Expand(lines, Copies(fields))
  }

  /** Filtering distributes over concatenation: the output of an earlier
      line always comes before the output of a later one. */
  lemma {:induction false} KeptLinesAppend(a: seq<string>, b: seq<string>, fields: seq<Json>)
    ensures KeptLines(a + b, fields) == KeptLines(a, fields) + KeptLines(b, fields)
  {
    ExpandAppend(a, b, Copies(fields));
  }

  /** The kept lines of a block, joined, split back into themselves. */
  lemma KeptLinesSplitBack(block: string, fields: seq<Json>)
    requires KeptLines(Split(block, '\n'), fields) != []
    ensures Split(Join("\n", KeptLines(Split(block, '\n'), fields)), '\n') == KeptLines(Split(block, '\n'), fields)
  {
    var kept := KeptLines(Split(block, '\n'), fields);
    forall i | 0 <= i < |kept|
      ensures '\n' !in kept[i]
    {
      assert kept[i] in kept;
    }
    SplitJoin(kept, '\n');
  }

  /** `_single` once the passages are known: the whole block when "all" was
      requested, otherwise its labelled lines, falling back to the whole
      block when none was kept. Every line shown is a line of the best
      passage. */
  function SingleAnswer(ctx: seq<string>, parsed: Option<Json>): (r: string)
    ensures NoMatches(ctx) ==> r == "Not found."
    ensures !NoMatches(ctx) ==> forall x :: x in Split(r, '\n') ==> x in Split(ctx[0], '\n')
  {
    if NoMatches(ctx) then "Not found."
    else
      var block := ctx[0];
      var fields := ExtractFields(parsed);
      if JStr("all") in fields then block
      else
        var kept := KeptLines(Split(block, '\n'), fields);
        if kept == [] then block
        else
          KeptLinesSplitBack(block, fields);
          Join("\n", kept)
  }

  /** The single-event answer: with "all" requested, or with no line kept,
      it is the whole first passage; otherwise, split into lines, it is
      exactly the kept lines in order. */
  lemma SingleAnswerLines(ctx: seq<string>, parsed: Option<Json>)
    requires !NoMatches(ctx)
    ensures var fields := ExtractFields(parsed);
            var kept := KeptLines(Split(ctx[0], '\n'), fields);
            && (JStr("all") in fields || kept == [] ==> SingleAnswer(ctx, parsed) == ctx[0])
            && (JStr("all") !in fields && kept != [] ==> Split(SingleAnswer(ctx, parsed), '\n') == kept)
  {
    var fields := ExtractFields(parsed);
    if JStr("all") !in fields && KeptLines(Split(ctx[0], '\n'), fields) != [] {
      KeptLinesSplitBack(ctx[0], fields);
    }
  }

  /** Lines that carry no requested label leave nothing behind. */
  lemma {:induction false} NothingKept(lines: seq<string>, fields: seq<Json>)
    requires forall x :: x in lines ==> MatchCount(x, fields, 0) == 0
    ensures Expand(lines, Copies(fields)) == []
    decreases |lines|
  {
    if lines != [] {
      assert lines[0] in lines;
      assert Copies(fields)(lines[0]) == Repeat(lines[0], 0) == [];
      assert forall x :: x in lines[1..] ==> x in lines;
      NothingKept(lines[1..], fields);
    }
  }

  /** When no label the filter knows was requested, the answer is the
      whole block. */
  lemma UnknownFieldsGiveWholeBlock(ctx: seq<string>, parsed: Option<Json>)
    requires !NoMatches(ctx)
    requires forall k :: 0 <= k < |FieldLabels| ==> JStr(FieldLabels[k]) !in ExtractFields(parsed)
    ensures SingleAnswer(ctx, parsed) == ctx[0]
  {
    var fields := ExtractFields(parsed);
    var lines := Split(ctx[0], '\n');
    forall x | x in lines
      ensures MatchCount(x, fields, 0) == 0
    {
      MatchCountZero(x, fields, 0);
    }
    NothingKept(lines, fields);
  }

  // ---------------------------------------------------------------------
  // Dispatch

  /** Everything the outside world answers during one question: the
      classifier's reply (`None` when the classifier call raised, which
      `handle_user_query` does not catch), today's year, the rows of the report queries, the
      analytics rows, the retrieved passages and the parsed attribute
      reply. */
  datatype Oracles = Oracles(
    intentReply: Option<string>,
    currentYear: int,
    reportRows: seq<Row>,
    domainRows: seq<Row>,
    venueRows: seq<Row>,
    analyticsRows: seq<Row>,
    passages: seq<string>,
    fieldsReply: Option<Json>)

  /** The database rows have the columns their queries select, for the
      branch the intent takes. */
  predicate RowsFit(o: Oracles) {
    o.intentReply.Some? ==>
      && (IntentOfReply(o.intentReply.value) == Multi ==>
            EventRowsShaped(Safe(o.reportRows))
            && CountRowsShaped(Safe(o.domainRows)) && CountRowsShaped(Safe(o.venueRows)))
      && (IntentOfReply(o.intentReply.value) == Analytics ==> CountRowsShaped(Safe(o.analyticsRows)))
  }

  /** `handle_user_query`: `None` stands for the classifier's exception,
      which propagates to the caller with no answer produced. */
  function HandleUserQuery(q: string, o: Oracles): (r: Option<string>)
    requires RowsFit(o)
    ensures r.None? <==> o.intentReply.None?
  {
    match o.intentReply
    case None => None
    case Some(reply) =>
      var y := ExtractYear(q, o.currentYear);
      match IntentOfReply(reply)
      case Multi => Some(BuildReport(y, o.reportRows, o.domainRows, o.venueRows))
      case Filter => Some(BuildFiltered(o.passages))
      case Analytics => Some(BuildAnalytics(ExtractYear(q, o.currentYear), o.analyticsRows))
      case Describe => Some(BuildDescription(o.passages))
      case Recommend => Some(BuildRecommend(o.passages))
      case Single => Some(SingleAnswer(o.passages, o.fieldsReply))
  }

  /** An aggregate question is answered from the report queries alone, for
      the year named in the question: the retrieved passages and the
      attribute reply play no part. */
  lemma MultiIgnoresRetrieval(q: string, o: Oracles, o': Oracles)
    requires RowsFit(o) && RowsFit(o')
    requires o.intentReply == o'.intentReply
    requires o.intentReply.Some? && IntentOfReply(o.intentReply.value) == Multi
    requires o.currentYear == o'.currentYear
    requires o.reportRows == o'.reportRows && o.domainRows == o'.domainRows && o.venueRows == o'.venueRows
    ensures HandleUserQuery(q, o) == HandleUserQuery(q, o')
    ensures HandleUserQuery(q, o) == Some(BuildReport(ExtractYear(q, o.currentYear), o.reportRows, o.domainRows, o.venueRows))
  {
  }

  /** A statistics question is answered from the analytics query alone,
      for the year named in the question: the passages, the attribute reply
      and the report rows play no part. */
  lemma AnalyticsIgnoresRetrieval(q: string, o: Oracles, o': Oracles)
    requires RowsFit(o) && RowsFit(o')
    requires o.intentReply == o'.intentReply
    requires o.intentReply.Some? && IntentOfReply(o.intentReply.value) == Analytics
    requires o.currentYear == o'.currentYear && o.analyticsRows == o'.analyticsRows
    ensures HandleUserQuery(q, o) == HandleUserQuery(q, o')
    ensures HandleUserQuery(q, o) == Some(BuildAnalytics(ExtractYear(q, o.currentYear), o.analyticsRows))
  {
  }

  /** Questions routed to retrieval are answered from the passages (and,
      for a single event, the attribute reply) alone: no database row and
      no clock reading plays a part. */
  lemma RetrievalIgnoresDatabase(q: string, o: Oracles, o': Oracles)
    requires RowsFit(o) && RowsFit(o')
    requires o.intentReply == o'.intentReply
    requires o.intentReply.Some? ==> IntentOfReply(o.intentReply.value) !in {Multi, Analytics}
    requires o.passages == o'.passages && o.fieldsReply == o'.fieldsReply
    ensures HandleUserQuery(q, o) == HandleUserQuery(q, o')
  {
  }

  /** A reply that names none of the five labels falls back to the
      single-event answer. */
  lemma UnlabelledGoesToSingle(q: string, o: Oracles)
    requires o.intentReply.Some?
    requires forall i: Intent :: i != Single ==> !Mentions(Normalised(o.intentReply.value), i)
    ensures RowsFit(o)
    ensures HandleUserQuery(q, o) == Some(SingleAnswer(o.passages, o.fieldsReply))
  {
    assert IntentOfReply(o.intentReply.value) == Single;
  }

  /** A reply that is exactly the label of a retrieval intent routes the
      question to that intent's builder over the passages. */
  lemma LabelRoutes(q: string, o: Oracles, i: Intent)
    requires o.intentReply == Some(Label(i)) && i !in {Multi, Analytics}
    ensures RowsFit(o)
    ensures i == Filter ==> HandleUserQuery(q, o) == Some(BuildFiltered(o.passages))
    ensures i == Describe ==> HandleUserQuery(q, o) == Some(BuildDescription(o.passages))
    ensures i == Recommend ==> HandleUserQuery(q, o) == Some(BuildRecommend(o.passages))
    ensures i == Single ==> HandleUserQuery(q, o) == Some(SingleAnswer(o.passages, o.fieldsReply))
  {
    LabelRoundTrip(i);
  }

  /** The worked example: "list all events in 2024" classified as MULTI
      gives the 2024 annual report. */
  lemma ReportExample(o: Oracles)
    requires o.intentReply == Some("MULTI")
    requires EventRowsShaped(Safe(o.reportRows))
    requires CountRowsShaped(Safe(o.domainRows)) && CountRowsShaped(Safe(o.venueRows))
    ensures IntentOfReply(o.intentReply.value) == Multi
    ensures HandleUserQuery("list all events in 2024", o) == Some(BuildReport(2024, o.reportRows, o.domainRows, o.venueRows))
  {
    LabelRoundTrip(Multi);
    ExtractYearExample(o.currentYear);
  }
}

=== FILE: report.dfy ===
/** The deterministic reports of backend/query_pipeline.py: the sentinel
    filter over database rows, the annual activity report and the domain
    analytics table. The rows are what the database returned for the
    report's queries; they are parameters of the model. */
module Report {
  import opened Text

  /** One database cell. */
  datatype Cell = Null | Str(s: string) | Int(i: int) | Date(year: nat, month: nat, day: nat)

  /** One result row; every SELECT yields at least one column. */
  type Row = r: seq<Cell> | |r| > 0 witness [Null]

  /** How Python's `str`/f-string renders a cell; a date prints as
      zero-padded `YYYY-MM-DD`. */
  function Render(c: Cell): string {
    match c
    case Null => "None"
    case Str(s) => s
    case Int(i) => IntToString(i)
    case Date(y, m, d) =>
      PadLeft(NatToString(y), 4, '0') + "-" + PadLeft(NatToString(m), 2, '0') + "-"
      + PadLeft(NatToString(d), 2, '0')
  }

  /** The text markers the query layer returns in place of data. */
  predicate IsSentinel(c: Cell) {
    c.Str? && (StartsWith(c.s, "SQL error") || c.s == "No results" || c.s == "Connection error")
  }

  /** `_safe`: drops the whole result when it is empty or its first cell is
      a sentinel, and otherwise passes it through unchanged. */
  function Safe(rows: seq<Row>): (r: seq<Row>)
    ensures r == [] || r == rows
    ensures r == [] <==> rows == [] || IsSentinel(rows[0][0])
  {
    if rows == [] then []
    else if IsSentinel(rows[0][0]) then []
    else rows
  }

  /** Only the first cell of the first row decides: two non-empty results
      that agree there are either both kept or both dropped. */
  lemma SafeInspectsFirstCellOnly(rows: seq<Row>, other: seq<Row>)
    requires rows != [] && other != [] && rows[0][0] == other[0][0]
    ensures Safe(rows) == [] <==> Safe(other) == []
  {
  }

  /** Filtering twice is filtering once. */
  lemma SafeIdempotent(rows: seq<Row>)
    ensures Safe(Safe(rows)) == Safe(rows)
  {
  }

  /** The five columns of the report query, with its date column holding
      dates or NULL: `for d, n, dom, v, t in rows` and `min(dates)` need
      exactly this shape. */
  predicate EventRowsShaped(rows: seq<Row>) {
    forall i :: 0 <= i < |rows| ==> |rows[i]| == 5 && (rows[i][0].Null? || rows[i][0].Date?)
  }

  /** The two columns of a GROUP BY count query. */
  predicate CountRowsShaped(rows: seq<Row>) {
    forall i :: 0 <= i < |rows| ==> |rows[i]| == 2
  }

  /** Calendar order of two dates. */
  predicate DateLeq(a: Cell, b: Cell)
    requires a.Date? && b.Date?
  {
    a.year < b.year || (a.year == b.year && (a.month < b.month || (a.month == b.month && a.day <= b.day)))
  }

  predicate AllDates(ds: seq<Cell>) {
    forall i :: 0 <= i < |ds| ==> ds[i].Date?
  }

  /** `[r[0] for r in rows if r[0] is not None]`. */
  function Dates(rows: seq<Row>): (ds: seq<Cell>)
    requires EventRowsShaped(rows)
    ensures AllDates(ds)
    decreases |rows|
  {
    if rows == [] then []
    else
      var rest := Dates(rows[1..]);
      if rows[0][0].Null? then rest else [rows[0][0]] + rest
  }

  /** The collected dates are exactly the non-null first cells: there are
      none only when every row's date is NULL, every non-null date is
      among them, and each of them is some row's date. */
  lemma {:induction false} DatesMembers(rows: seq<Row>)
    requires EventRowsShaped(rows)
    ensures var ds := Dates(rows);
            && |ds| <= |rows|
            && (ds == [] <==> forall i :: 0 <= i < |rows| ==> rows[i][0].Null?)
            && (forall i :: 0 <= i < |rows| && rows[i][0].Date? ==> rows[i][0] in ds)
            && (forall d :: d in ds ==> exists i :: 0 <= i < |rows| && rows[i][0] == d)
    decreases |rows|
  {
    if rows != [] {
      DatesMembers(rows[1..]);
      assert forall i :: 1 <= i < |rows| ==> rows[i] == rows[1..][i - 1];
      var rest := Dates(rows[1..]);
      forall d | d in Dates(rows)
        ensures exists i :: 0 <= i < |rows| && rows[i][0] == d
      {
        if d !in rest {
          assert rows[0][0] == d;
        } else {
          var j :| 0 <= j < |rows[1..]| && rows[1..][j][0] == d;
          assert rows[j + 1][0] == d;
        }
      }
    }
  }

  /** `min(dates)`: one of the dates, no later than any of them. */
  function MinDate(ds: seq<Cell>): (m: Cell)
    requires ds != [] && AllDates(ds)
    ensures m in ds && m.Date?
    ensures forall i :: 0 <= i < |ds| ==> DateLeq(m, ds[i])
    decreases |ds|
  {
    if |ds| == 1 then ds[0]
    else
      var m := MinDate(ds[1..]);
      assert forall i :: 1 <= i < |ds| ==> ds[i] == ds[1..][i - 1];
      if DateLeq(m, ds[0]) then m else ds[0]
  }

  /** `max(dates)`: one of the dates, no earlier than any of them. */
  function MaxDate(ds: seq<Cell>): (m: Cell)
    requires ds != [] && AllDates(ds)
    ensures m in ds && m.Date?
    ensures forall i :: 0 <= i < |ds| ==> DateLeq(ds[i], m)
    decreases |ds|
  {
    if |ds| == 1 then ds[0]
    else
      var m := MaxDate(ds[1..]);
      assert forall i :: 1 <= i < |ds| ==> ds[i] == ds[1..][i - 1];
      if DateLeq(ds[0], m) then m else ds[0]
  }

  /** The separator the source writes between the first and last date:
      the characters U+00E2 U+20AC U+201C, which is how an en dash encoded
      in UTF-8 reads when decoded as Windows-1252. */
  const PeriodDash: string := " \U{e2}\U{20ac}\U{201c} "

  /** The executive summary's period: earliest to latest non-null date, or
      the year alone when every date is NULL. */
  function Period(year: int, events: seq<Row>): string
    requires EventRowsShaped(events)
  {
    Span(year, Dates(events))
  }

  /** The period for the given non-null dates. */
  function Span(year: int, ds: seq<Cell>): string
    requires AllDates(ds)
  {
    if ds == [] then IntToString(year)
    else Render(MinDate(ds)) + PeriodDash + Render(MaxDate(ds))
  }

  /** Rows `j` and `k` hold the earliest and the latest non-null date. */
  predicate EarliestLatest(events: seq<Row>, j: int, k: int) {
    && 0 <= j < |events| && 0 <= k < |events|
    && |events[j]| > 0 && |events[k]| > 0 && events[j][0].Date? && events[k][0].Date?
    && forall i :: 0 <= i < |events| && |events[i]| > 0 && events[i][0].Date? ==>
         DateLeq(events[j][0], events[i][0]) && DateLeq(events[i][0], events[k][0])
  }

  /** The period printed in the summary: the year alone when every date
      is NULL; otherwise the dates of two of the rows, the first no later
      and the second no earlier than any non-null date. */
  lemma PeriodCases(year: int, events: seq<Row>)
    requires EventRowsShaped(events)
    ensures (forall i :: 0 <= i < |events| ==> events[i][0].Null?) ==> Period(year, events) == IntToString(year)
    ensures (exists i :: 0 <= i < |events| && events[i][0].Date?) ==>
              exists j, k :: EarliestLatest(events, j, k)
                             && Period(year, events) == Render(events[j][0]) + PeriodDash + Render(events[k][0])
  {
    var ds := Dates(events);
    DatesMembers(events);
    if ds != [] {
      var lo := MinDate(ds);
      var hi := MaxDate(ds);
      var j :| 0 <= j < |events| && events[j][0] == lo;
      var k :| 0 <= k < |events| && events[k][0] == hi;
      assert Period(year, events) == Render(lo) + PeriodDash + Render(hi);
      forall i | 0 <= i < |events| && |events[i]| > 0 && events[i][0].Date?
        ensures DateLeq(lo, events[i][0]) && DateLeq(events[i][0], hi)
      {
        var t :| 0 <= t < |ds| && ds[t] == events[i][0];
      }
      assert EarliestLatest(events, j, k);
    }
  }

  /** A markdown table row: `| a | b | ... |`. */
  function TableLine(cells: seq<string>): string {
    "| " + Join(" | ", cells) + " |"
  }

  /** The rendered cells of a row, in column order. */
  function Cells(r: Row): (cs: seq<string>)
    ensures |cs| == |r| && forall i :: 0 <= i < |r| ==> cs[i] == Render(r[i])
  {
    seq(|r|, i requires 0 <= i < |r| => Render(r[i]))
  }

  /** One table line per row, in row order. */
  function TableRows(rows: seq<Row>): (ls: seq<string>)
    ensures |ls| == |rows|
    ensures forall k :: 0 <= k < |rows| ==> ls[k] == TableLine(Cells(rows[k]))
  {
    seq(|rows|, k requires 0 <= k < |rows| => TableLine(Cells(rows[k])))
  }

  /** The body of a count section: the rows, or `| N/A | 0 |` when the
      sub-query gave nothing. */
  function CountSection(rows: seq<Row>): seq<string> {
    if rows == [] then ["| N/A | 0 |"] else TableRows(rows)
  }

  const EventTableHead: seq<string> :=
    ["## 1. Chronological Event Overview", "", "| Date | Event | Domain | Venue | Time |",
     "|------|-------|--------|-------|------|"]
  const DomainHead: seq<string> :=
    ["## 2. Domain Distribution", "", "| Domain | Count |", "|--------|-------|"]
  const VenueHead: seq<string> :=
    ["## 3. Venue Breakdown", "", "| Venue | Count |", "|-------|-------|"]

  function ReportTitle(year: int): string {
    "# CLUB EVENTS ANNUAL ACTIVITY REPORT (" + IntToString(year) + ")"
  }

  function TotalLine(n: nat): string {
    "Total Events: " + NatToString(n)
  }

  /** `_build_report(year)` given the three query results (events of the
      year in date order, counts per domain, counts per venue). */
  function BuildReport(year: int, rows: seq<Row>, domainRows: seq<Row>, venueRows: seq<Row>): (r: string)
    requires EventRowsShaped(Safe(rows))
    requires CountRowsShaped(Safe(domainRows)) && CountRowsShaped(Safe(venueRows))
    ensures Safe(rows) == [] <==> r == "No events found for " + IntToString(year) + "."
  {
    var events := Safe(rows);
    if events == [] then "No events found for " + IntToString(year) + "."
    else
      var header := Lines([ReportTitle(year), ""]);
      var summary := Lines(["## 0. Executive Summary", "", TotalLine(|events|),
                            "Period: " + Period(year, events), ""]);
      var table := Lines(EventTableHead + TableRows(events) + [""]);
      var domainSec := Lines(DomainHead + CountSection(Safe(domainRows)) + [""]);
      var venueSec := Lines(VenueHead + CountSection(Safe(venueRows)) + [""]);
      var r := header + summary + table + domainSec + venueSec;
      LinesFirstChar([ReportTitle(year), ""]);
      assert r[0] == header[0];
      r
  }

  /** `_build_analytics` once the year is known: "No data." or the domain
      count table, one line per row in query order. */
  function BuildAnalytics(year: int, rows: seq<Row>): (r: string)
    requires CountRowsShaped(Safe(rows))
    ensures Safe(rows) == [] <==> r == "No data."
  {
    var counts := Safe(rows);
    if counts == [] then "No data."
    else
      var r := Lines(["Analytics for " + IntToString(year) + ":", "", "| Domain | Count |", "|--------|-------|"]
                     + TableRows(counts));
      LinesFirstChar(["Analytics for " + IntToString(year) + ":", "", "| Domain | Count |", "|--------|-------|"]
                     + TableRows(counts));
      r
  }

  // ---------------------------------------------------------------------
  // Layout of the rendered text

  predicate NoBreak(s: string) {
    '\n' !in s
  }

  predicate AllNoBreak(ls: seq<string>) {
    forall i :: 0 <= i < |ls| ==> NoBreak(ls[i])
  }

  /** No rendered cell of any row holds a line break. */
  predicate SingleLineCells(rows: seq<Row>) {
    forall i, j :: 0 <= i < |rows| && 0 <= j < |rows[i]| ==> NoBreak(Render(rows[i][j]))
  }

  lemma DigitsNoBreak(s: string)
    requires forall i :: 0 <= i < |s| ==> IsDigit(s[i])
    ensures NoBreak(s)
  {
  }

  lemma PadNoBreak(s: string, w: nat)
    requires NoBreak(s)
    ensures NoBreak(PadLeft(s, w, '0'))
    decreases w - |s|
  {
    if |s| < w {
      PadNoBreak(['0'] + s, w);
    }
  }

  lemma RenderDateNoBreak(c: Cell)
    requires c.Date?
    ensures NoBreak(Render(c))
  {
    DigitsNoBreak(NatToString(c.year));
    DigitsNoBreak(NatToString(c.month));
    DigitsNoBreak(NatToString(c.day));
    PadNoBreak(NatToString(c.year), 4);
    PadNoBreak(NatToString(c.month), 2);
    PadNoBreak(NatToString(c.day), 2);
  }

  lemma IntNoBreak(i: int)
    ensures NoBreak(IntToString(i))
  {
    if i < 0 {
      DigitsNoBreak(NatToString(-i));
    } else {
      DigitsNoBreak(NatToString(i));
    }
  }

  lemma {:induction false} JoinNoBreak(sep: string, parts: seq<string>)
    requires NoBreak(sep) && AllNoBreak(parts)
    ensures NoBreak(Join(sep, parts))
    decreases |parts|
  {
    if |parts| > 1 {
      JoinNoBreak(sep, parts[1..]);
    }
  }

  lemma TableRowsNoBreak(rows: seq<Row>)
    requires SingleLineCells(rows)
    ensures AllNoBreak(TableRows(rows))
  {
    forall k | 0 <= k < |rows|
      ensures NoBreak(TableRows(rows)[k])
    {
      JoinNoBreak(" | ", Cells(rows[k]));
    }
  }

  lemma SpanNoBreak(year: int, ds: seq<Cell>)
    requires AllDates(ds)
    ensures NoBreak(Span(year, ds))
  {
    if ds == [] {
      IntNoBreak(year);
    } else {
      DateRangeNoBreak(MinDate(ds), MaxDate(ds));
    }
  }

  lemma DashNoBreak()
    ensures NoBreak(PeriodDash)
  {
  }

  lemma DateRangeNoBreak(lo: Cell, hi: Cell)
    requires lo.Date? && hi.Date?
    ensures NoBreak(Render(lo) + PeriodDash + Render(hi))
  {
    RenderDateNoBreak(lo);
    RenderDateNoBreak(hi);
    DashNoBreak();
    ConcatNoBreak(Render(lo), PeriodDash);
    ConcatNoBreak(Render(lo) + PeriodDash, Render(hi));
  }

  /** Text made of lines starts with the first character of its first
      line. */
  lemma LinesFirstChar(ls: seq<string>)
    requires ls != [] && ls[0] != ""
    ensures Lines(ls) != [] && Lines(ls)[0] == ls[0][0]
  {
    assert Lines(ls) == ls[0] + ("\n" + Lines(ls[1..]));
  }

  lemma AppendNoBreak(a: seq<string>, b: seq<string>)
    requires AllNoBreak(a) && AllNoBreak(b)
    ensures AllNoBreak(a + b)
  {
  }

  /** The lines of a non-empty annual report around its variable parts:
      the title, the total and period lines of the executive summary, and
      the bodies of the event, domain and venue tables. */
  function Layout(title: string, total: string, period: string,
                  eventBody: seq<string>, domainBody: seq<string>, venueBody: seq<string>): seq<string>
  {
    [title, ""]
    + ["## 0. Executive Summary", "", total, period, ""]
    + (EventTableHead + eventBody + [""])
    + (DomainHead + domainBody + [""])
    + (VenueHead + venueBody + [""])
  }

  /** The lines of a non-empty annual report, in order. */
  function ReportLines(year: int, events: seq<Row>, domains: seq<Row>, venues: seq<Row>): seq<string>
    requires EventRowsShaped(events)
  {
    Layout(ReportTitle(year), TotalLine(|events|), "Period: " + Period(year, events),
           TableRows(events), CountSection(domains), CountSection(venues))
  }

  /** The text of the layout is the five blocks written one after the
      other. */
  lemma LayoutLines(title: string, total: string, period: string,
                    eventBody: seq<string>, domainBody: seq<string>, venueBody: seq<string>)
    ensures Lines(Layout(title, total, period, eventBody, domainBody, venueBody))
            == Lines([title, ""])
               + Lines(["## 0. Executive Summary", "", total, period, ""])
               + Lines(EventTableHead + eventBody + [""])
               + Lines(DomainHead + domainBody + [""])
               + Lines(VenueHead + venueBody + [""])
  {
    LinesAppend5([title, ""], ["## 0. Executive Summary", "", total, period, ""],
                 EventTableHead + eventBody + [""], DomainHead + domainBody + [""], VenueHead + venueBody + [""]);
  }

  lemma ReportIsLines(year: int, rows: seq<Row>, domainRows: seq<Row>, venueRows: seq<Row>)
    requires EventRowsShaped(Safe(rows)) && Safe(rows) != []
    requires CountRowsShaped(Safe(domainRows)) && CountRowsShaped(Safe(venueRows))
    ensures BuildReport(year, rows, domainRows, venueRows)
            == Lines(ReportLines(year, Safe(rows), Safe(domainRows), Safe(venueRows)))
  {
    var events := Safe(rows);
    LayoutLines(ReportTitle(year), TotalLine(|events|), "Period: " + Period(year, events),
                TableRows(events), CountSection(Safe(domainRows)), CountSection(Safe(venueRows)));
  }

  lemma EventHeadNoBreak()
    ensures AllNoBreak(EventTableHead)
  {
    HeadingNoBreak();
    ColumnsNoBreak();
    RuleNoBreak();
  }

  lemma HeadingNoBreak()
    ensures NoBreak("## 1. Chronological Event Overview")
  {
  }

  lemma ColumnsNoBreak()
    ensures NoBreak("| Date | Event | Domain | Venue | Time |")
  {
  }

  lemma RuleNoBreak()
    ensures NoBreak("|------|-------|--------|-------|------|")
  {
  }

  lemma DomainHeadNoBreak()
    ensures AllNoBreak(DomainHead)
  {
    assert NoBreak("## 2. Domain Distribution");
    assert NoBreak("| Domain | Count |");
    assert NoBreak("|--------|-------|");
  }

  lemma VenueHeadNoBreak()
    ensures AllNoBreak(VenueHead)
  {
    assert NoBreak("## 3. Venue Breakdown");
    assert NoBreak("| Venue | Count |");
    assert NoBreak("|-------|-------|");
  }

  /** Text joined from two pieces without line breaks has none. */
  lemma ConcatNoBreak(a: string, b: string)
    requires NoBreak(a) && NoBreak(b)
    ensures NoBreak(a + b)
  {
    assert forall i :: 0 <= i < |a + b| ==> (a + b)[i] == if i < |a| then a[i] else b[i - |a|];
  }

  /** A section (heading lines, body lines, closing blank line) has no
      line break inside a line. */
  lemma SectionNoBreak(head: seq<string>, body: seq<string>)
    requires AllNoBreak(head) && AllNoBreak(body)
    ensures AllNoBreak(head + body + [""])
  {
    AppendNoBreak(head, body);
    AppendNoBreak(head + body, [""]);
  }

  lemma TitleNoBreak(year: int)
    ensures NoBreak(ReportTitle(year))
  {
    IntNoBreak(year);
    assert NoBreak("# CLUB EVENTS ANNUAL ACTIVITY REPORT (");
  }

  lemma TotalNoBreak(n: nat)
    ensures NoBreak(TotalLine(n))
  {
    DigitsNoBreak(NatToString(n));
    assert NoBreak("Total Events: ");
  }

  lemma PeriodLabelNoBreak()
    ensures NoBreak("Period: ")
  {
  }

  lemma PeriodLineNoBreak(year: int, events: seq<Row>)
    requires EventRowsShaped(events)
    ensures NoBreak("Period: " + Period(year, events))
  {
    SpanNoBreak(year, Dates(events));
    PeriodLabelNoBreak();
    ConcatNoBreak("Period: ", Period(year, events));
  }

  lemma ListNoBreak(ls: seq<string>)
    requires forall i :: 0 <= i < |ls| ==> ls[i] == "" || NoBreak(ls[i])
    ensures AllNoBreak(ls)
  {
  }

  lemma SummaryHeadingNoBreak()
    ensures NoBreak("## 0. Executive Summary")
  {
  }

  lemma CountSectionNoBreak(rows: seq<Row>)
    requires SingleLineCells(rows)
    ensures AllNoBreak(CountSection(rows))
  {
    if rows == [] {
      assert NoBreak("| N/A | 0 |");
    } else {
      TableRowsNoBreak(rows);
    }
  }

  /** The layout has no line break inside a line when its parts have
      none. */
  lemma LayoutNoBreak(title: string, total: string, period: string,
                      eventBody: seq<string>, domainBody: seq<string>, venueBody: seq<string>)
    requires NoBreak(title) && NoBreak(total) && NoBreak(period)
    requires AllNoBreak(eventBody) && AllNoBreak(domainBody) && AllNoBreak(venueBody)
    ensures AllNoBreak(Layout(title, total, period, eventBody, domainBody, venueBody))
  {
    var l1 := [title, ""];
    var l2 := ["## 0. Executive Summary", "", total, period, ""];
    var l3 := EventTableHead + eventBody + [""];
    var l4 := DomainHead + domainBody + [""];
    var l5 := VenueHead + venueBody + [""];
    SummaryHeadingNoBreak();
    ListNoBreak(l1);
    ListNoBreak(l2);
    EventHeadNoBreak();
    DomainHeadNoBreak();
    VenueHeadNoBreak();
    SectionNoBreak(EventTableHead, eventBody);
    SectionNoBreak(DomainHead, domainBody);
    SectionNoBreak(VenueHead, venueBody);
    AppendNoBreak(l1, l2);
    AppendNoBreak(l1 + l2, l3);
    AppendNoBreak(l1 + l2 + l3, l4);
    AppendNoBreak(l1 + l2 + l3 + l4, l5);
  }

  lemma ReportLinesNoBreak(year: int, events: seq<Row>, domains: seq<Row>, venues: seq<Row>)
    requires EventRowsShaped(events)
    requires SingleLineCells(events) && SingleLineCells(domains) && SingleLineCells(venues)
    ensures AllNoBreak(ReportLines(year, events, domains, venues))
  {
    TitleNoBreak(year);
    TotalNoBreak(|events|);
    PeriodLineNoBreak(year, events);
    TableRowsNoBreak(events);
    CountSectionNoBreak(domains);
    CountSectionNoBreak(venues);
    LayoutNoBreak(ReportTitle(year), TotalLine(|events|), "Period: " + Period(year, events),
                  TableRows(events), CountSection(domains), CountSection(venues));
  }

  /** The annual report, read line by line: the title, the executive
      summary with the event count and the period, the chronological table
      with exactly one line per event row in query order, then the domain
      section and the venue section, each falling back to `| N/A | 0 |`
      when its query gave nothing. The number printed after
      "Total Events: " reads back as the number of event rows. */
  lemma ReportLayout(year: int, rows: seq<Row>, domainRows: seq<Row>, venueRows: seq<Row>)
    requires EventRowsShaped(Safe(rows)) && Safe(rows) != []
    requires CountRowsShaped(Safe(domainRows)) && CountRowsShaped(Safe(venueRows))
    requires SingleLineCells(rows) && SingleLineCells(domainRows) && SingleLineCells(venueRows)
    ensures Split(BuildReport(year, rows, domainRows, venueRows), '\n')
            == ReportLines(year, Safe(rows), Safe(domainRows), Safe(venueRows)) + [""]
    ensures ParseDigits(TotalLine(|Safe(rows)|)[14..]) == |Safe(rows)|
  {
    var all := ReportLines(year, Safe(rows), Safe(domainRows), Safe(venueRows));
    ReportIsLines(year, rows, domainRows, venueRows);
    ReportLinesNoBreak(year, Safe(rows), Safe(domainRows), Safe(venueRows));
    SplitLines(all, "");
    assert Lines(all) + "" == Lines(all);
    assert TotalLine(|Safe(rows)|)[14..] == NatToString(|Safe(rows)|);
    ParseNatToString(|Safe(rows)|);
  }

  /** Where each part sits among the lines of the report: the title
      first, the event count on line 4 and the period on line 5, then the
      event table whose body holds the given lines, then the domain section,
      then the venue section, each after its four heading lines. */
  lemma LayoutPositions(title: string, total: string, period: string,
                        eventBody: seq<string>, domainBody: seq<string>, venueBody: seq<string>)
    ensures var ls := Layout(title, total, period, eventBody, domainBody, venueBody);
            var n := |eventBody|;
            var d := |domainBody|;
            && |ls| == 22 + n + d + |venueBody|
            && ls[0] == title && ls[2] == "## 0. Executive Summary" && ls[4] == total && ls[5] == period
            && ls[7..11] == EventTableHead
            && ls[11..11 + n] == eventBody
            && ls[12 + n..16 + n] == DomainHead
            && ls[16 + n..16 + n + d] == domainBody
            && ls[17 + n + d..21 + n + d] == VenueHead
            && ls[21 + n + d..21 + n + d + |venueBody|] == venueBody
  {
    SectionPositions([title, ""], ["## 0. Executive Summary", "", total, period, ""],
                     EventTableHead, eventBody, DomainHead, domainBody, VenueHead, venueBody);
  }

  /** Positions of the parts of five concatenated blocks, the last three
      of them a heading, a body and a blank line. */
  lemma SectionPositions(l1: seq<string>, l2: seq<string>, h3: seq<string>, b3: seq<string>,
                         h4: seq<string>, b4: seq<string>, h5: seq<string>, b5: seq<string>)
    requires |l1| == 2 && |l2| == 5 && |h3| == 4 && |h4| == 4 && |h5| == 4
    ensures var ls := l1 + l2 + (h3 + b3 + [""]) + (h4 + b4 + [""]) + (h5 + b5 + [""]);
            var n := |b3|;
            var d := |b4|;
            && |ls| == 22 + n + d + |b5|
            && ls[0] == l1[0] && ls[2] == l2[0] && ls[4] == l2[2] && ls[5] == l2[3]
            && ls[7..11] == h3
            && ls[11..11 + n] == b3
            && ls[12 + n..16 + n] == h4
            && ls[16 + n..16 + n + d] == b4
            && ls[17 + n + d..21 + n + d] == h5
            && ls[21 + n + d..21 + n + d + |b5|] == b5
  {
    var ls := l1 + l2 + (h3 + b3 + [""]) + (h4 + b4 + [""]) + (h5 + b5 + [""]);
    var n := |b3|;
    var d := |b4|;
    assert ls[7..] == h3 + b3 + [""] + (h4 + b4 + [""]) + (h5 + b5 + [""]);
    assert ls[12 + n..] == h4 + b4 + [""] + (h5 + b5 + [""]);
    assert ls[17 + n + d..] == h5 + b5 + [""];
  }

  /** The analytics table, read line by line: a title naming the year, the
      header, then exactly one line per count row in query order. */
  lemma AnalyticsLayout(year: int, rows: seq<Row>)
    requires CountRowsShaped(Safe(rows)) && Safe(rows) != []
    requires SingleLineCells(rows)
    ensures Split(BuildAnalytics(year, rows), '\n')
            == ["Analytics for " + IntToString(year) + ":", "", "| Domain | Count |", "|--------|-------|"]
               + TableRows(Safe(rows)) + [""]
  {
    var head := ["Analytics for " + IntToString(year) + ":", "", "| Domain | Count |", "|--------|-------|"];
    IntNoBreak(year);
    TableRowsNoBreak(Safe(rows));
    assert AllNoBreak(head);
    AppendNoBreak(head, TableRows(Safe(rows)));
    SplitLines(head + TableRows(Safe(rows)), "");
    assert Lines(head + TableRows(Safe(rows))) + "" == Lines(head + TableRows(Safe(rows)));
  }
}

=== FILE: retriever_ingest.dfy ===
/** `add_new_event` of retriever.py: connects, embeds the search text of
    the stripped description and perks, registers the vector type on the
    cursor, inserts and commits; on any failure it rolls back and closes.
    The connection, the encoder, the registration and the insert are
    parameters. */
module RetrieverIngest {
  import opened Wrappers
  import opened Text
  import opened PyValues
  import opened EventRecord
  import FrontendIngest
  import BackendIngest

  /** The outside world during one call. */
  datatype Services = Services(
    connects: bool,
    embed: string -> FrontendIngest.EmbedResult,
    registerError: Option<string>,
    insertError: Option<string>)

  /** What the call did besides replying: the text given to the encoder,
      the committed row, whether it rolled back, and whether it closed the
      connection. */
  datatype Effects = Effects(embedded: Option<string>, stored: Option<InsertRow>, rolledBack: bool, closeCalled: bool)

  const Added: BackendIngest.Reply := BackendIngest.Reply(true, "Event added successfully.")

  /** The parts of the search text: description and perks both stripped. */
  function Fields(form: Form): SearchFields {
    SearchFields(
      Show(Get(form, "name_of_event", PyStr(""))),
      Show(Get(form, "event_domain", PyStr(""))),
      StoredDescription(form),
      Strip(OrEmpty(Get(form, "perks", PyStr("")))))
  }

  function MakeSearchText(form: Form): (r: string)
    ensures SingleLine("Details", Fields(form)) ==> ParseSearchText("Details", r) == Some(Fields(form))
  {
    if SingleLine("Details", Fields(form)) then
      SearchTextRoundTrip("Details", Fields(form));
      SearchText("Details", Fields(form))
    else
      SearchText("Details", Fields(form))
  }

  /** The failure path: roll back and close, report the exception text. */
  function Failed(e: string, embedded: Option<string>): (BackendIngest.Reply, Effects) {
    (BackendIngest.Reply(false, e), Effects(embedded, None, true, true))
  }

  /** `add_new_event`. Once connected, the connection is always closed;
      it is rolled back exactly when nothing was stored; an event is stored
      exactly when the call reports success, with the form's row, the
      stripped description, the search text and the vector the encoder
      returned for exactly that text. */
  function AddNewEvent(form: Form, sv: Services): (o: (BackendIngest.Reply, Effects))
    ensures !sv.connects ==> o == (BackendIngest.ConnectionError, Effects(None, None, false, false))
    ensures sv.connects ==> o.1.closeCalled && (o.1.rolledBack <==> o.1.stored.None?)
    ensures o.0.ok <==> o.1.stored.Some?
    ensures o.0.ok ==> o.0 == Added
    ensures o.1.embedded.Some? ==> o.1.embedded == Some(MakeSearchText(form))
    ensures o.1.stored.Some? ==>
              && sv.embed(MakeSearchText(form)).Embedded?
              && o.1.stored.value
                 == BuildRow(form, StoredDescription(form), MakeSearchText(form), sv.embed(MakeSearchText(form)).vector)
  {
    if !sv.connects then (BackendIngest.ConnectionError, Effects(None, None, false, false))
    else
      var text := MakeSearchText(form);
      match sv.embed(text)
      case EmbedFailed(e) => Failed(e, Some(text))
      case Embedded(vector) =>
        if sv.registerError.Some? then Failed(sv.registerError.value, Some(text))
        else if sv.insertError.Some? then Failed(sv.insertError.value, Some(text))
        else (Added, Effects(Some(text), Some(BuildRow(form, StoredDescription(form), text, vector)), false, true))
  }

  /** An event is stored exactly when the connection, the encoder, the
      registration and the insert all succeed. */
  lemma StoredExactlyWhenAllSucceed(form: Form, sv: Services)
    ensures AddNewEvent(form, sv).1.stored.Some? <==>
              sv.connects && sv.embed(MakeSearchText(form)).Embedded? && sv.registerError.None? && sv.insertError.None?
  {
  }

  /** This path and the one of backend/frontend.py store the same columns
      for the same form; their search texts agree whenever the perks need
      no stripping, and then the same encoder gives the same row. */
  lemma AgreesWithBackend(form: Form, sv: Services, bsv: BackendIngest.Services)
    requires AddNewEvent(form, sv).1.stored.Some?
    requires BackendIngest.AddNewEvent(form, bsv).1.stored.Some?
    ensures var r := AddNewEvent(form, sv).1.stored.value;
            var b := BackendIngest.AddNewEvent(form, bsv).1.stored.value;
            && r.eventId == b.eventId
            && (forall f: Field :: ColumnFor(r, f) == ColumnFor(b, f))
            && r.description == b.description
    ensures var p := OrEmpty(Get(form, "perks", PyStr("")));
            Strip(p) == p ==> MakeSearchText(form) == BackendIngest.MakeSearchText(form)
    ensures var p := OrEmpty(Get(form, "perks", PyStr("")));
            Strip(p) == p && sv.embed == bsv.embed ==>
              AddNewEvent(form, sv).1.stored == BackendIngest.AddNewEvent(form, bsv).1.stored
  {
  }

  /** The stored search text reads back into the embedded parts. */
  lemma StoredTextReadsBack(form: Form, sv: Services)
    requires AddNewEvent(form, sv).1.stored.Some?
    requires SingleLine("Details", Fields(form))
    ensures ParseSearchText("Details", AddNewEvent(form, sv).1.stored.value.searchText) == Some(Fields(form))
  {
  }
}

=== FILE: text.dfy ===
/** Strings as the Python and JavaScript built-ins of the system see them:
    whitespace trimming, substring search, case mapping, splitting and
    joining on a separator, and decimal rendering of integers. */
module Text {

  /** Python's `str.isspace` for one character. */
  predicate IsPySpace(c: char) {
    || c == ' '
    || ('\t' <= c <= '\r')
    || ('\U{1c}' <= c <= '\U{1f}')
    || c == '\U{85}' || c == '\U{a0}' || c == '\U{1680}'
    || ('\U{2000}' <= c <= '\U{200a}')
    || c == '\U{2028}' || c == '\U{2029}' || c == '\U{202f}'
    || c == '\U{205f}' || c == '\U{3000}'
  }

  /** The characters JavaScript's `String.prototype.trim` removes:
      WhiteSpace and LineTerminator of ECMA-262. */
  predicate IsJsSpace(c: char) {
    || c == ' '
    || ('\t' <= c <= '\r')
    || c == '\U{a0}' || c == '\U{1680}'
    || ('\U{2000}' <= c <= '\U{200a}')
    || c == '\U{2028}' || c == '\U{2029}' || c == '\U{202f}'
    || c == '\U{205f}' || c == '\U{3000}' || c == '\U{feff}'
  }

  /** Drops the leading characters satisfying `ws`. */
  function TrimStart(s: string, ws: char -> bool): (r: string)
    ensures |r| <= |s| && r == s[|s| - |r|..]
    ensures r == [] || !ws(r[0])
    ensures forall i :: 0 <= i < |s| - |r| ==> ws(s[i])
    decreases |s|
  {
    if s != [] && ws(s[0]) then
      var r := TrimStart(s[1..], ws);
      assert s[1..][|s| - 1 - |r|..] == s[|s| - |r|..];
      assert forall i :: 1 <= i < |s| - |r| ==> s[i] == s[1..][i - 1];
      r
    else s
  }

  /** Drops the trailing characters satisfying `ws`. */
  function TrimEnd(s: string, ws: char -> bool): (r: string)
    ensures |r| <= |s| && r == s[..|r|]
    ensures r == [] || !ws(r[|r| - 1])
    ensures forall i :: |r| <= i < |s| ==> ws(s[i])
    decreases |s|
  {
    if s != [] && ws(s[|s| - 1]) then
      var r := TrimEnd(s[..|s| - 1], ws);
      assert s[..|s| - 1][..|r|] == s[..|r|];
      assert forall i :: |r| <= i < |s| - 1 ==> s[i] == s[..|s| - 1][i];
      r
    else s
  }

  /** Trimming both ends with any whitespace class: the result is empty
      exactly when every character is whitespace, it never starts or ends
      with whitespace, and a string already free of whitespace at its ends
      comes back unchanged. */
  function Trim(s: string, ws: char -> bool): (r: string)
    ensures r == [] || (!ws(r[0]) && !ws(r[|r| - 1]))
    ensures r == [] <==> forall i :: 0 <= i < |s| ==> ws(s[i])
    ensures (s == [] || (!ws(s[0]) && !ws(s[|s| - 1]))) ==> r == s
    ensures |r| <= |s|
  {
    TrimEnds(s, ws);
    TrimEmpty(s, ws);
    TrimKeeps(s, ws);
    TrimEnd(TrimStart(s, ws), ws)
  }

  /** Neither end of the trimmed text is whitespace. */
  lemma TrimEnds(s: string, ws: char -> bool)
    ensures var r := TrimEnd(TrimStart(s, ws), ws);
            r == [] || (!ws(r[0]) && !ws(r[|r| - 1]))
  {
    var t := TrimStart(s, ws);
    var r := TrimEnd(t, ws);
    if r != [] {
      assert r[0] == t[0];
    }
  }

  /** Trimming leaves nothing exactly when every character is whitespace. */
  lemma TrimEmpty(s: string, ws: char -> bool)
    ensures TrimEnd(TrimStart(s, ws), ws) == [] <==> forall i :: 0 <= i < |s| ==> ws(s[i])
  {
    var t := TrimStart(s, ws);
    var r := TrimEnd(t, ws);
    var d := |s| - |t|;
    if r == [] {
      forall i | 0 <= i < |s|
        ensures ws(s[i])
      {
        if d <= i {
          assert s[i] == t[i - d];
        }
      }
    } else {
      assert r[0] == t[0] == s[d];
    }
  }

  /** A text with no whitespace at either end is left as it is. */
  lemma TrimKeeps(s: string, ws: char -> bool)
    ensures (s == [] || (!ws(s[0]) && !ws(s[|s| - 1]))) ==> TrimEnd(TrimStart(s, ws), ws) == s
  {
    if s != [] && !ws(s[0]) && !ws(s[|s| - 1]) {
      assert TrimStart(s, ws) == s;
    }
  }

  /** Trimming twice trims once. */
  lemma TrimIdempotent(s: string, ws: char -> bool)
    ensures Trim(Trim(s, ws), ws) == Trim(s, ws)
  {
  }

  /** Python's `str.strip()` with no argument. */
  function Strip(s: string): string {
    Trim(s, IsPySpace)
  }

  /** JavaScript's `String.prototype.trim()`. */
  function JsTrim(s: string): string {
    Trim(s, IsJsSpace)
  }

  /** `sub` occurs in `s` starting at index `i`. */
  predicate OccursAt(s: string, sub: string, i: int) {
    0 <= i && i + |sub| <= |s| && s[i..i + |sub|] == sub
  }

  /** Python's `sub in s` and JavaScript's `s.includes(sub)` on strings. */
  predicate Contains(s: string, sub: string) {
    exists i | 0 <= i <= |s| - |sub| :: OccursAt(s, sub, i)
  }

  /** Python's `s.startswith(p)`. */
  predicate StartsWith(s: string, p: string) {
    |p| <= |s| && s[..|p|] == p
  }

  /** Python's `str.upper()` on one character, exact for every character
      whose upper case contains an ASCII letter; every other character is
      left as it is. */
  function UpperChar(c: char): string {
    if 'a' <= c <= 'z' then [(c as int - 32) as char]
    else if c == '\U{131}' then "I"
    else if c == '\U{17f}' then "S"
    else if c == '\U{df}' then "SS"
    else if c == '\U{149}' then "\U{2bc}N"
    else if c == '\U{1f0}' then "J\U{30c}"
    else if c == '\U{1e96}' then "H\U{331}"
    else if c == '\U{1e97}' then "T\U{308}"
    else if c == '\U{1e98}' then "W\U{30a}"
    else if c == '\U{1e99}' then "Y\U{30a}"
    else if c == '\U{1e9a}' then "A\U{2be}"
    else if c == '\U{fb00}' then "FF"
    else if c == '\U{fb01}' then "FI"
    else if c == '\U{fb02}' then "FL"
    else if c == '\U{fb03}' then "FFI"
    else if c == '\U{fb04}' then "FFL"
    else if c == '\U{fb05}' || c == '\U{fb06}' then "ST"
    else [c]
  }

  /** Python's `str.lower()` on one character, exact for every character
      whose lower case contains an ASCII letter; every other character is
      left as it is. */
  function LowerChar(c: char): string {
    if 'A' <= c <= 'Z' then [(c as int + 32) as char]
    else if c == '\U{130}' then "i\U{307}"
    else if c == '\U{212a}' then "k"
    else [c]
  }

  function Upper(s: string): string
    decreases |s|
  {
    if s == [] then [] else UpperChar(s[0]) + Upper(s[1..])
  }

  function Lower(s: string): string
    decreases |s|
  {
    if s == [] then [] else LowerChar(s[0]) + Lower(s[1..])
  }

  /** Python's `sep.join(parts)` and JavaScript's `parts.join(sep)`. */
  function Join(sep: string, parts: seq<string>): string
    decreases |parts|
  {
    if |parts| == 0 then ""
    else if |parts| == 1 then parts[0]
    else parts[0] + sep + Join(sep, parts[1..])
  }

  /** Index of the first occurrence of `d` in `s`. */
  function FirstIndex(s: string, d: char): (k: nat)
    requires d in s
    ensures k < |s| && s[k] == d && d !in s[..k]
    decreases |s|
  {
    if s[0] == d then 0
    else
      var k := 1 + FirstIndex(s[1..], d);
      assert s[..k] == [s[0]] + s[1..][..k - 1];
      k
  }

  /** Python's `s.split(d)` for a one-character separator: the pieces
      between separators, never an empty list, and no piece holds `d`. */
  function Split(s: string, d: char): (r: seq<string>)
    ensures |r| >= 1
    ensures forall i :: 0 <= i < |r| ==> d !in r[i]
    decreases |s|
  {
    if d !in s then [s]
    else
      var k := FirstIndex(s, d);
      [s[..k]] + Split(s[k + 1..], d)
  }

  /** Text made of the given lines, each followed by a line break. */
  function Lines(ls: seq<string>): string
    decreases |ls|
  {
    if ls == [] then "" else ls[0] + "\n" + Lines(ls[1..])
  }

  /** Splitting a piece without the separator, a separator and the rest
      yields the piece followed by the pieces of the rest. */
  lemma SplitAfterPiece(a: string, d: char, b: string)
    requires d !in a
    ensures Split(a + [d] + b, d) == [a] + Split(b, d)
  {
    var s := a + [d] + b;
    assert s[|a|] == d;
    assert s[..|a|] == a;
    var k := FirstIndex(s, d);
    assert k == |a|;
    assert s[..k] == a;
    assert s[k + 1..] == b;
  }

  /** Split undoes Join: joining pieces free of the separator and splitting
      the result gives the pieces back. */
  lemma {:induction false} SplitJoin(parts: seq<string>, d: char)
    requires |parts| >= 1
    requires forall i :: 0 <= i < |parts| ==> d !in parts[i]
    ensures Split(Join([d], parts), d) == parts
    decreases |parts|
  {
    if |parts| == 1 {
      assert Join([d], parts) == parts[0];
    } else {
      SplitJoin(parts[1..], d);
      assert Join([d], parts) == parts[0] + [d] + Join([d], parts[1..]);
      SplitAfterPiece(parts[0], d, Join([d], parts[1..]));
      assert parts == [parts[0]] + parts[1..];
    }
  }

  /** Join undoes Split: every string is the join of its pieces. */
  lemma {:induction false} JoinSplit(s: string, d: char)
    ensures Join([d], Split(s, d)) == s
    decreases |s|
  {
    if d in s {
      var k := FirstIndex(s, d);
      var rest := Split(s[k + 1..], d);
      JoinSplit(s[k + 1..], d);
      var parts := [s[..k]] + rest;
      assert Split(s, d) == parts;
      assert |parts| >= 2 && parts[0] == s[..k] && parts[1..] == rest;
      assert Join([d], parts) == s[..k] + [d] + Join([d], rest);
      assert s == s[..k] + [d] + s[k + 1..];
    }
  }

  /** Lines of a concatenation is the concatenation of the Lines. */
  lemma {:induction false} LinesAppend(a: seq<string>, b: seq<string>)
    ensures Lines(a + b) == Lines(a) + Lines(b)
    decreases |a|
  {
    if a != [] {
      LinesAppend(a[1..], b);
      assert (a + b)[0] == a[0];
      assert (a + b)[1..] == a[1..] + b;
      assert Lines(a + b) == a[0] + "\n" + Lines(a[1..] + b);
    } else {
      assert a + b == b;
    }
  }

  /** Five blocks of lines written one after the other are the lines of
      the five blocks together. */
  lemma LinesAppend5(a: seq<string>, b: seq<string>, c: seq<string>, d: seq<string>, e: seq<string>)
    ensures Lines(a) + Lines(b) + Lines(c) + Lines(d) + Lines(e) == Lines(a + b + c + d + e)
  {
    LinesAppend(a, b);
    LinesAppend(a + b, c);
    LinesAppend(a + b + c, d);
    LinesAppend(a + b + c + d, e);
  }

  /** Lines is the join of the lines on line breaks, plus a final break. */
  lemma {:induction false} LinesJoin(ls: seq<string>)
    requires ls != []
    ensures Lines(ls) == Join("\n", ls) + "\n"
    decreases |ls|
  {
    if |ls| > 1 {
      LinesJoin(ls[1..]);
      assert Lines(ls) == ls[0] + "\n" + Lines(ls[1..]);
      assert Join("\n", ls) == ls[0] + "\n" + Join("\n", ls[1..]);
    } else {
      assert Lines(ls[1..]) == "";
    }
  }

  lemma TrimEndBreak(x: string, ws: char -> bool)
    requires ws('\n')
    requires x != [] && !ws(x[|x| - 1])
    ensures TrimEnd(x + "\n", ws) == x
  {
    var s := x + "\n";
    assert s[|s| - 1] == '\n';
    assert s[..|s| - 1] == x;
  }

  lemma TrimStartBreak(x: string, ws: char -> bool)
    requires ws('\n')
    requires x != [] && !ws(x[0])
    ensures TrimStart(x, ws) == x
    ensures TrimStart("\n" + x, ws) == x
  {
    var t := "\n" + x;
    assert t[0] == '\n';
    assert t[1..] == x;
  }

  /** Trimming removes a line break framing text whose own first and last
      characters are not whitespace, and nothing else. */
  lemma TrimFramed(x: string, ws: char -> bool)
    requires ws('\n')
    requires x != [] && !ws(x[0]) && !ws(x[|x| - 1])
    ensures Trim(x + "\n", ws) == x
    ensures Trim("\n" + (x + "\n"), ws) == x
  {
    TrimEndBreak(x, ws);
    TrimStartBreak(x + "\n", ws);
    assert (x + "\n")[0] == x[0];
  }

  /** Text built as lines followed by a tail splits, on line breaks, back
      into those lines and the tail, provided none of them holds a line
      break. */
  lemma SplitLines(ls: seq<string>, tail: string)
    requires forall i :: 0 <= i < |ls| ==> '\n' !in ls[i]
    requires '\n' !in tail
    ensures Split(Lines(ls) + tail, '\n') == ls + [tail]
  {
    var parts := ls + [tail];
    LinesTail(ls, tail);
    forall i | 0 <= i < |parts|
      ensures '\n' !in parts[i]
    {
      if i < |ls| {
        assert parts[i] == ls[i];
      }
    }
    SplitJoin(parts, '\n');
  }

  /** Lines followed by a tail are the lines and the tail joined on line
      breaks. */
  lemma {:induction false} LinesTail(ls: seq<string>, tail: string)
    ensures Lines(ls) + tail == Join("\n", ls + [tail])
    decreases |ls|
  {
    if ls == [] {
      assert ls + [tail] == [tail];
    } else {
      LinesTail(ls[1..], tail);
      assert (ls + [tail])[1..] == ls[1..] + [tail];
      assert Lines(ls) == ls[0] + "\n" + Lines(ls[1..]);
    }
  }

  /** Python's `s.replace(a, b)` for one-character `a` and `b`. */
  function ReplaceChar(s: string, a: char, b: char): (r: string)
    ensures |r| == |s|
    ensures forall i :: 0 <= i < |s| ==> r[i] == if s[i] == a then b else s[i]
    decreases |s|
  {
    if s == [] then []
    else [if s[0] == a then b else s[0]] + ReplaceChar(s[1..], a, b)
  }

  /** Python's slice `s[:n]`. */
  function Take(s: string, n: nat): (r: string)
    ensures |r| == (if |s| <= n then |s| else n)
    ensures r == s[..|r|]
  {
    if |s| <= n then s else s[..n]
  }

  predicate IsDigit(c: char) {
    '0' <= c <= '9'
  }

  function DigitChar(d: nat): (c: char)
    requires d < 10
    ensures IsDigit(c)
  {
    ('0' as int + d) as char
  }

  function DigitValue(c: char): (d: nat)
    requires IsDigit(c)
    ensures d < 10
  {
    c as int - '0' as int
  }

  /** Decimal rendering of a natural number, as Python's `str` and
      JavaScript's `String` produce it: digits only, no leading zero. */
  function NatToString(n: nat): (r: string)
    ensures |r| >= 1
    ensures forall i :: 0 <= i < |r| ==> IsDigit(r[i])
    ensures |r| > 1 ==> r[0] != '0'
    decreases n
  {
    if n < 10 then [DigitChar(n)]
    else NatToString(n / 10) + [DigitChar(n % 10)]
  }

  /** Decimal rendering of an integer, with a minus sign when negative. */
  function IntToString(i: int): (r: string)
    ensures |r| >= 1
  {
    if i < 0 then "-" + NatToString(-i) else NatToString(i)
  }

  /** The value of a string of decimal digits. */
  function ParseDigits(s: string): nat
    requires forall i :: 0 <= i < |s| ==> IsDigit(s[i])
    decreases |s|
  {
    if s == [] then 0 else 10 * ParseDigits(s[..|s| - 1]) + DigitValue(s[|s| - 1])
  }

  /** Reading back a rendered number gives the number. */
  lemma {:induction false} ParseNatToString(n: nat)
    ensures ParseDigits(NatToString(n)) == n
    decreases n
  {
    if n >= 10 {
      ParseNatToString(n / 10);
      var r := NatToString(n);
      assert r[..|r| - 1] == NatToString(n / 10);
    }
  }

  /** `s` padded on the left with `c` to at least `width` characters. */
  function PadLeft(s: string, width: nat, c: char): (r: string)
    ensures |r| == if |s| < width then width else |s|
    ensures r[|r| - |s|..] == s
    decreases width - |s|
  {
    if |s| < width then PadLeft([c] + s, width, c) else s
  }
}

=== FILE: values.dfy ===
/** Python values as the ingestion code sees them: form fields that are
    strings or `None`, gathered in a dictionary. */
module PyValues {
  /** A form field: a string or Python's `None`. */
  datatype PyValue = PyNone | PyStr(s: string)

  /** A form dictionary: field name to value. */
  type Form = map<string, PyValue>

  /** `form.get(key, default)`: the stored value when the key is present,
      even when that value is `None`; `default` only for an absent key. */
  function Get(form: Form, key: string, default: PyValue): PyValue {
    if key in form then form[key] else default
  }

  /** Python truthiness of a string-or-None: `None` and `""` are false. */
  predicate Truthy(v: PyValue) {
    v.PyStr? && v.s != ""
  }

  /** `v or ""`. */
  function OrEmpty(v: PyValue): string {
    if Truthy(v) then v.s else ""
  }

  /** `v or None` for a string `v`. */
  function NoneIfEmpty(s: string): PyValue {
    if s == "" then PyNone else PyStr(s)
  }

  /** How an f-string renders the value: `None` prints as "None". */
  function Show(v: PyValue): string {
    match v
    case PyNone => "None"
    case PyStr(s) => s
  }
}

/** Values produced by `JSON.parse` / `json.loads`, with the JavaScript
    conversions the attribute formatter applies to them. */
module JsonValues {
  import opened Wrappers
  import opened Text

  /** A parsed JSON document. Numbers are restricted to integers. */
  datatype Json =
    | JNull
    | JBool(b: bool)
    | JNum(n: int)
    | JStr(s: string)
    | JArray(items: seq<Json>)
    | JObject(members: seq<(string, Json)>)

  /** JavaScript falsiness of a parsed value: null, false, 0 and "". */
  predicate JsFalsy(v: Json) {
    v == JNull || v == JBool(false) || v == JNum(0) || v == JStr("")
  }

  /** `obj[key]` on a parsed object, `undefined` (None) when the key is not
      an own member. `JSON.parse` keeps the last of duplicate keys. */
  function Member(members: seq<(string, Json)>, key: string): (r: Option<Json>)
    ensures r.None? <==> forall i :: 0 <= i < |members| ==> members[i].0 != key
    ensures r.Some? ==> exists i :: 0 <= i < |members| && members[i] == (key, r.value)
    decreases |members|
  {
    if members == [] then None
    else if members[|members| - 1].0 == key then Some(members[|members| - 1].1)
    else Member(members[..|members| - 1], key)
  }

  /** Converting the value to text throws a `TypeError`: an object with
      its own `toString` member, or an array holding one at any depth. A
      parsed member is never callable, so the conversion skips it, and the
      inherited `valueOf` returns the object itself rather than a primitive,
      which leaves nothing to convert to. */
  predicate ToStringThrows(v: Json)
    decreases v
  {
    match v
    case JObject(members) => exists i :: 0 <= i < |members| && members[i].0 == "toString"
    case JArray(items) => exists i :: 0 <= i < |items| && ToStringThrows(items[i])
    case _ => false
  }

  /** The text `String(v)` gives when the conversion does not throw; it is
      also how such a value becomes a property key. Arrays join their
      elements with ",", rendering `null` elements as "", and an object
      without its own `toString` renders as "[object Object]". */
  function JsText(v: Json): string
    decreases v, 1
  {
    match v
    case JNull => "null"
    case JBool(b) => if b then "true" else "false"
    case JNum(n) => IntToString(n)
    case JStr(s) => s
    case JArray(items) => JoinElements(items)
    case JObject(_) => "[object Object]"
  }

  /** `items.join(",")`, for elements that convert. */
  function JoinElements(items: seq<Json>): string
    decreases items, 0
  {
    if items == [] then ""
    else
      var first := if items[0] == JNull then "" else JsText(items[0]);
      if |items| == 1 then first else first + "," + JoinElements(items[1..])
  }

  /** `String(v)` in JavaScript, None when it throws: the conversion looks
      for an own `toString` member in every object it meets, and otherwise
      gives the text of JsText. */
  function JsString(v: Json): (r: Option<string>)
    ensures r.None? <==> ToStringThrows(v)
    ensures r.Some? ==> r.value == JsText(v)
    decreases v, 1
  {
    match v
    case JObject(members) =>
      if Member(members, "toString").Some? then None else Some("[object Object]")
    case JArray(items) => JoinChecked(items)
    case JNull => Some("null")
    case JBool(b) => Some(if b then "true" else "false")
    case JNum(n) => Some(IntToString(n))
    case JStr(s) => Some(s)
  }

  /** `items.join(",")`, None as soon as an element fails to convert. */
  function JoinChecked(items: seq<Json>): (r: Option<string>)
    ensures r.None? <==> exists i :: 0 <= i < |items| && ToStringThrows(items[i])
    ensures r.Some? ==> r.value == JoinElements(items)
    decreases items, 0
  {
    if items == [] then Some("")
    else
      var first := if items[0] == JNull then Some("") else JsString(items[0]);
      if first.None? then None
      else if |items| == 1 then first
      else
        match JoinChecked(items[1..])
        case None => None
        case Some(rest) => Some(first.value + "," + rest)
  }
}

=== FILE: wrappers.dfy ===
/** The optional-value datatype shared by every module of the model. */
module Wrappers {

  /** A value that may be absent: a missing dictionary key, an `undefined`
      property, a regular-expression search without a match. */
  datatype Option<+T> = None | Some(value: T) {

    /** The wrapped value, or `default` when there is none. */
    function GetOr(default: T): T {
      match this
      case Some(v) => v
      case None => default
    }
  }
}
